=== FILE: README.md ===
# Abuse detection of a Discord moderation bot, in Dafny

This project models the abuse-detection core of a single-file Discord bot
(`main.py`). It covers:

- the per-user **rate limiter** at the top of `on_message`: at most 10 messages in 20 s, three warnings earn a 10-minute mute;
- the **repeated-message** detector: the same body 10 times among the author's last 50 messages earns a 7-day timeout;
- the **anti-raid guard**:
  - per-author message rate per minute;
  - the duplicate-content ledger with its delayed cleanup;
  - the join-burst kick in `on_member_join`;
  - the two admin commands that tune thresholds and clear a guild's records;
- the per-guild configurable **anti-spam** check run in the background for every message;
- the **verification** flow's abuse counters: button presses per hour, warnings toward a kick, wrong codes before the code is invalidated;
- the dispatcher that routes a message through those detectors in order;
- three small commands with their own arithmetic:
  - the daily **check-in streak**;
  - the **scheduled shutdown** time;
  - the **number-guessing game**.

Everything is written as pure functions over immutable state:

- Each handler takes the detector's state, the event and the current time, plus one outcome per `try` block around a sanction: whether everything in that block went through. A block usually holds the platform call and its announcement, so a timeout or kick that happened but whose announcement failed counts as failed, as it does for the code that follows the block.
- For the rate mute and the identical-message timeout, the outcome also tells a `discord.Forbidden` refusal whose own notice could not be posted; that exception escapes and ends `on_message` (`main.py:1151-1152`, `main.py:1191-1192`).
- Each handler returns the new state and a verdict.
- Time is a whole number of microseconds on the bot's naive local clock.
  - Differences of instants are therefore exactly the source's `timedelta` values.
  - `timedelta.seconds` and `timedelta.days` are written out as the floor arithmetic Python uses (`Clock.SecondsField`, `Clock.DaysField`).

Behaviours of the code that are reproduced as written:

- The join ledger (`main.py:1379`) and the raid message window (`main.py:1209`) filter on `timedelta.seconds`, not on the total age.
  - An entry one day and a few seconds old therefore still counts as recent.
  - `Window.SecondsFieldKeepsDayOld`, `JoinGuard.DayOldJoinStillCounts` and `RaidMessages.DayOldMessageStillCounts` exhibit this.
- The rate limiter pops stale entries only from the front of its deque (`main.py:1095`).
  - `Window.EvictStaleKeepsStaleBehindFresh` shows that an entry recorded out of order survives.
  - `Window.EvictStaleIsRetainWhenSorted` shows this equals a filter when instants arrive in order.
- Verification button presses are counted per user across all guilds (`main.py:2404`).
- Issued verification codes are stored per guild only (`main.py:2667`), so a later code replaces an earlier member's.
- The anti-spam `muted` flag is never cleared (`main.py:872`), so a member is timed out by it at most once.
- The wrong-code counter is not reset when the code is invalidated (`main.py:2491-2497`), so every later wrong code invalidates again.

The code compares a submitted verification code with the code the dialog was opened with (`main.py:2437`), not with the code stored for the guild.

## Model

| member | source | states |
|---|---|---|
| Clock.SecondsField | main.py:1209 | `timedelta.seconds` lies in [0, 86400) and, below one day, is the number of whole seconds elapsed |
| Clock.DaysField | main.py:1385 | `timedelta.days` is the floor of the age in whole days |
| Clock.SecondsFieldWraps | main.py:1379 | `.seconds` of a one-day-and-s-seconds difference reads s, the same as for s seconds |
| Window.Retain | main.py:1209 | list-comprehension trimming keeps an instant iff it was recorded and passes the age test, never more entries than it had |
| Window.RetainCounts | main.py:1209 | every copy of a passing instant survives and no copy of a failing one, so the trimmed length each threshold compares is the number of passing entries |
| Window.RetainSorted | main.py:844-847 | trimming a window recorded in order leaves it in order |
| Window.RetainAppend | main.py:1376-1379 | trimming a concatenation trims each part; recorded order is preserved |
| Window.RetainAllKept | main.py:2407 | a window whose entries all pass the test is unchanged by trimming |
| Window.RecordThenRetain | main.py:1208-1209 | appending `now` then trimming keeps `now`, which is always fresh |
| Window.EvictStale | main.py:1095-1096 | popping from the front removes a prefix of entries all older than the limit and stops at a fresh one |
| Window.EvictStaleIsRetainWhenSorted | main.py:1092-1096 | on an in-order deque, front popping equals filtering by age |
| Window.EvictStaleKeepsStaleBehindFresh | main.py:1095 | out of order, a stale entry behind a fresh head survives front popping though a filter would drop it |
| Window.SecondsFieldKeepsDayOld | main.py:1209 | the `.seconds` test keeps an entry one day and s seconds old that the true-age test drops |
| Window.SecondsFieldAgreesWithinADay | main.py:1379 | below one day of age the `.seconds` test and the true-age test agree |
| RateLimit.Rearm | main.py:1085-1088 | an expired mute is cleared and the warned flag re-armed; the warning count is kept |
| RateLimit.Step | main.py:1065-1159 | while muted the message is suppressed and nothing changes; otherwise the window is the 20 s deque, a warning is issued iff the window exceeds 10 and the episode was not yet warned, each warning adds exactly 1, the third and later warnings attempt a 600 s mute, and the flag is re-armed once the window drops to 10 |
| RateLimit.MuteExpiryRearms | main.py:1086-1088 | the first message at or after the mute's end is not suppressed and starts from a re-armed tracker |
| RateLimit.WindowContents | main.py:1091-1099 | with in-order instants, the window is exactly the earlier instants at most 20 s old, then `now` |
| RateLimit.WindowIsRecent | main.py:1094-1096 | every instant left in the window is within 20 s before `now` |
| RateLimit.StepKeepsOrder | main.py:1092-1096 | the window stays in order and never holds a future instant |
| RateLimit.WarningsAccumulate | main.py:1113 | over any trace the warning count grows by exactly the number of warnings issued and never decreases |
| RateLimit.NoRewarnWithinEpisode | main.py:1102 | while every message still sees more than 10 in the window, no further warning is issued |
| RateLimit.InstantsLast | main.py:1092 | the trace's instants grow by the last message's instant |
| RateLimit.QuietStep | main.py:1099-1102 | a message that finds fewer than 10 recent entries passes and is kept |
| RateLimit.QuietRun | main.py:1092-1102 | up to 10 messages within 20 s pass without a warning and are all kept |
| RateLimit.FirstEpisodeWarnsOnEleventh | main.py:1102-1113 | 11 messages within 20 s from a fresh tracker draw exactly one warning, on the 11th |
| RateLimit.OnMessage | main.py:551-556 | the per-user table: the sender's tracker (a fresh one if unseen) takes one step and every other user's is unchanged |
| History.Push | main.py:529 | `deque(maxlen=50)`: the body is appended and, when full, the oldest falls out |
| History.Step | main.py:1161-1194 | a non-empty body seen 10 or more times among the last 50 triggers a 7-day timeout; success clears the buffer, failure keeps it |
| History.PushCounts | main.py:1164 | appending adds one copy of the body and, when full, drops the oldest body |
| History.OccurrencesAfterPush | main.py:1168 | the count seen by a message is at most one more than the copies already held, exactly one more while not full |
| History.NoRetriggerAfterClear | main.py:1188-1189 | after a successful suspension the next identical message counts 1 and does not trigger |
| History.RepeatShape | main.py:529 | up to ten copies pushed into any buffer leave its newest bodies followed by the copies, the oldest falling out once 50 are held |
| History.TenthCopyTriggers | main.py:1166-1169 | from any buffer without the body, full or not, the k-th copy sees exactly k copies: copies 1-9 pass and the 10th triggers |
| History.OnMessage | main.py:1162-1164 | the per-author table: only the author's buffer changes |
| RaidState.Parse | main.py:6151-6163 | a recognised type argument is the name of that threshold |
| RaidState.ParseName | main.py:6151-6161 | every threshold's name is recognised as that threshold |
| RaidState.Configure | main.py:6149-6164 | a recognised type argument sets exactly that threshold; the other three and an unrecognised argument change nothing |
| RaidState.ClearGuild | main.py:6206-6217 | the guild's join ledger, message windows and ledger keys are emptied; other guilds and the thresholds are untouched |
| RaidState.ClearGuildIdempotent | main.py:6209-6217 | clearing twice is clearing once |
| RaidMessages.LowerChar | main.py:1200 | ASCII capitals map to their small letters, everything else is unchanged, and no capital remains |
| RaidMessages.Lower | main.py:1200 | lower-casing keeps the length and maps every character |
| RaidMessages.LowerIdempotent | main.py:1200 | lower-casing twice is lower-casing once |
| RaidMessages.RecordMessage | main.py:1205-1209 | the author's window becomes the surviving instants then `now`; other authors and guilds are untouched |
| RaidMessages.OnMessage | main.py:1196-1246 | over `maxMessages` in the window the message is deleted; only when it was not, and the lower-cased body is over 3 characters, the ledger key is incremented, deleted at the threshold when the delete succeeds, and a cleanup is scheduled iff the count is now 1 |
| RaidMessages.Cleanup | main.py:1242-1245 | the delayed cleanup removes the key if present and touches nothing else |
| RaidMessages.CleanupIdempotent | main.py:1244-1245 | a second cleanup of the same key changes nothing |
| RaidMessages.CleanupOnlyOnFirstOccurrence | main.py:1241 | a cleanup is scheduled only when the key had no count before the message |
| RaidMessages.FreshCountAfterRemoval | main.py:1225 | once the key is gone, the next duplicate counts 1 again |
| RaidMessages.DayOldMessageStillCounts | main.py:1209 | a message one day and d < 60 seconds old stays in the minute window |
| JoinGuard.OnJoin | main.py:1368-1424 | a blacklisted joiner changes nothing; otherwise the join is recorded, the window filtered by `.seconds < 600`, and a join finding more than `maxJoins` is kicked (as a new account when under `minAccountAgeDays` days old); a failed kick still logs the join |
| JoinGuard.JoinIsRecorded | main.py:1376-1379 | the joining instant is always in its guild's window |
| JoinGuard.BurstKicksNextJoiner | main.py:1381-1382 | with at least `maxJoins` recent joins, the next joiner is kicked or a kick is attempted |
| JoinGuard.DayOldJoinStillCounts | main.py:1379 | a join one day and d < 600 seconds after the last one counts both |
| AntiSpam.Step | main.py:843-872 | entries at least `seconds` old are dropped and `now` appended; more than `maxMessages` sanctions a member not yet muted, and the flag is set only when the timeout succeeded |
| AntiSpam.OnMessage | main.py:820-850 | a guild without a settings row or with the check disabled changes nothing; otherwise only the member's entry changes |
| AntiSpam.MutedIsSticky | main.py:854 | a muted member stays muted and is never timed out again |
| AntiSpam.AtMostOneTimeout | main.py:853-872 | over any trace a member is timed out at most once, and not at all if already muted |
| Verification.CheckSpam | main.py:2398-2423 | presses an hour old are dropped and `now` appended for the user; a press is abuse iff more than 3 remain or the member is already verified, abuse adds one warning for that guild and user, and a kick is due iff the warnings reach 3 |
| Verification.Press | main.py:2540-2667 | a press on a button older than 300 s changes nothing; otherwise it is checked for abuse and, when not abuse, the new code replaces the guild's stored code; the expiry test and the press window use their own clock reads (`main.py:2546`, `main.py:2400`) |
| Verification.Submit | main.py:2434-2531 | the right code verifies and resets the error count; a wrong one adds an error, and from the 3rd on removes the guild's stored code |
| Verification.InvalidationRepeats | main.py:2491-2497 | once 3 wrong codes are counted, every further wrong code invalidates again |
| Verification.SubmitIgnoresStoredCodes | main.py:2437 | the outcome of a submission does not depend on the codes stored per guild |
| Verification.LaterCodeReplacesEarlier | main.py:2666-2667 | a second member's code issued in the same guild overwrites the first member's |
| Verification.PressesSharedAcrossGuilds | main.py:2404-2408 | a press counts the same presses whichever guild it comes from |
| Verification.FourthPressWarns | main.py:2407-2415 | of four presses within an hour by a fresh member, the first three pass and the fourth is abuse |
| Verification.VerifiedPressesEscalate | main.py:2415-2421 | an already verified member's presses each add one warning, none is ever removed, and the press that brings the count to 3 calls for a kick |
| Engine.OnMessage | main.py:1055-1253 | the bot's own messages and DMs are ignored; a rate-muted sender's message stops there with no state change; otherwise the rate limiter, history, raid checks (non-bots only) and anti-spam run in that order, each on its own state, except that a refused mute or timeout whose notice cannot be posted ends the handler, keeping what the detectors before it changed and leaving the raid guard and anti-spam untouched; the rate limiter, the raid guard and anti-spam each use their own clock read (`main.py:1069`, `main.py:1201`, `main.py:841`) |
| Engine.UnpostableRefusalSkipsLaterDetectors | main.py:1183-1192 | the 10th identical body, refused with `Forbidden` and with an unpostable notice, stays in the buffer and reaches neither the raid guard nor anti-spam |
| Engine.OnEvent | main.py:1368-1424 | each event changes only the detector it is routed to; raid commands not sent by an admin from a guild are refused. Besides the join handler cited, it routes the verification button (`main.py:2546-2559`), the code dialog (`main.py:2434-2531`), `raid_config` (`main.py:6151-6164`) and `clear_raid_logs` (`main.py:6209-6217`) |
| Engine.MutedMessagesChangeNothing | main.py:1072-1083 | any number of messages from a user under a running mute leave every detector unchanged |
| Checkin.InsertDescending | main.py:5059 | insertion keeps the list newest first and adds exactly the new date |
| Checkin.SortDescending | main.py:5059 | `sorted(..., reverse=True)` gives a newest-first permutation of the dates |
| Checkin.StreakOfSorted | main.py:5057-5065 | the streak is at least 1; the first `n` dates step back one day at a time and the next does not |
| Checkin.Newest | main.py:5059 | the newest date is a check-in date and no check-in is later |
| Checkin.StreakIsConsecutiveRun | main.py:5057-5065 | without repeated dates, the streak is exactly the run of consecutive checked-in days ending at the newest |
| Checkin.CheckIn | main.py:5028-5048 | a second check-in on the same day is refused and records nothing; otherwise today is added and dates stay distinct |
| Checkin.CheckInCountsRunEndingToday | main.py:5043-5065 | after checking in today with no future dates, the streak counts the consecutive days ending today |
| Checkin.NextDayExtendsStreak | main.py:5043-5065 | checking in the day after the last check-in extends the streak by exactly one |
| Checkin.RepeatedDateStopsStreak | main.py:5060-5065 | a date stored twice at the head ends the walk at 1 |
| Text.StripTrims | main.py:4663 | stripping removes only whitespace at the ends, and only all-whitespace text strips to empty |
| Text.StripPadded | main.py:4663 | text padded with whitespace strips back to the text |
| Text.ParseInt | main.py:4663-4666 | `int()` of text with no digit fails |
| Text.ShowNat | main.py:5102 | `str()` of a natural number is a numeral whose value is that number |
| Text.ParseShow | main.py:5102 | `int()` reads back `str(n)` for every integer, whatever whitespace surrounds it |
| Text.Split | main.py:4663 | `str.split` gives at least one separator-free part, joins back to the text, and gives one part iff the separator is absent |
| Text.SplitJoin | main.py:4663 | separator-free parts joined and split come back unchanged |
| Shutdown.NextOccurrence | main.py:4672-4677 | the target is after `now`, at most a day later, and reads hour:minute:00 on the clock |
| Shutdown.NextOccurrenceIsFirst | main.py:4672-4677 | no instant between `now` and the target reads hour:minute:00 |
| Shutdown.ParseTime | main.py:4661-4666 | a bare number is an hour with minute 0; colon text that does not split into exactly two parts fails |
| Shutdown.ParseTimeShown | main.py:4662-4663 | "H:M" as `str()` writes it parses to exactly (H, M) |
| Shutdown.ParseTimeBareHour | main.py:4664-4666 | a bare hour parses to (H, 0) |
| Shutdown.ThreeFieldsUnparsable | main.py:4663 | three colon-separated numbers are a format error |
| Shutdown.Schedule | main.py:4651-4726 | callers without permission are denied; unparsable, out-of-range and sub-10 s targets are refused; a scheduled target reads the requested time and lies within a day; a valid time replaces any pending shutdown when the confirmation goes through, and leaves none when the confirmation raises, since the old one is cancelled before it and the new one created after it |
| Shutdown.ScheduleParsed | main.py:4668-4722 | text that reads as an in-range hour and minute is scheduled at its next occurrence when confirmed, leaves no shutdown when the confirmation raises, and is refused when that occurrence is under 10 s away |
| Shutdown.ValidTimeIsScheduled | main.py:4668-4722 | every in-range "H:M" is scheduled at its next occurrence unless that is under 10 s away or the confirmation raises |
| GuessGame.Count | main.py:5098-5128 | an in-range number uses one guess and is recorded; it wins iff it is the secret, the reply says higher iff below and lower iff above, and the 10th miss loses |
| GuessGame.Guess | main.py:5097-5132 | a number in range is counted and recorded; the secret wins, otherwise the reply says which way and how many remain, and the 10th miss loses; non-numbers and out-of-range numbers change nothing; a finished game ignores input; a reply that fails (no reply is inside a `try` that catches Discord errors) aborts the game instead of winning, losing or continuing |
| GuessGame.FailedReplyAborts | main.py:5098-5132 | from a game in play, a failed reply to anything typed aborts the game, and nothing typed afterwards changes it |
| GuessGame.Timeout | main.py:5133-5142 | a minute of silence ends a game in play and leaves a finished game alone |
| GuessGame.MissesAreCounted | main.py:5099-5110 | misses while guesses remain are all recorded, and the game is lost exactly at the 10th |
| GuessGame.Miss | main.py:5101-5125 | a miss in range uses up one guess |
| GuessGame.TenMissesLose | main.py:5099-5151 | ten misses from the start lose the game, with the ten guesses shown |
| GuessGame.FinishedGameIgnoresInput | main.py:5112-5122 | once won, lost, timed out or aborted, nothing typed changes the game |

## Left out

- Discord API calls (delete, timeout, kick, ban, role grants, DMs, log embeds): the outcome of each `try` block that wraps them is a parameter, and their messages and embeds are not modelled. The number game's replies sit in no such `try`; whether a reply went through is the `replyOk` parameter of `GuessGame.Guess`, and a failure aborts the game.
- The database (SQLAlchemy sessions): guild settings, the blacklist, verification records and check-in rows are parameters.
- The blacklist lookup in `on_member_join` (`main.py:1299-1363`) is the `blacklisted` parameter; the ban it issues is left out.
- asyncio:
  - Handlers are modelled as running one at a time, in the order events are given.
  - The background anti-spam task is modelled as running right after its message.
  - Interleavings between awaits are not modelled.
- The 60 s ledger cleanup is the separate `LedgerCleanup` event, whenever it fires.
- Clocks and randomness:
  - Each `datetime.now()` read is a parameter of its own, unconstrained relative to the others. `Engine.Message` carries the three reads that `on_message` and its background task make. `Verification.Press` takes the expiry read and the press-window read separately.
  - `member.created_at` is taken on the same naive clock; the source's UTC-versus-local mismatch is not modelled.
  - The random verification code and the game's secret are parameters.
- Python's `str.lower()` and `int()` on non-ASCII text: the model lower-cases ASCII only, and accepts ASCII digits and ASCII whitespace (plus U+001C to U+001F) only.
- Shutdown.Schedule:
  - The wait is compared in exact microseconds; `total_seconds()` is a float in the source.
  - The `asyncio.sleep` and the actual shutdown are left out.
- The verification flow's kick-and-blacklist task (`main.py:2560-2663`) is reduced to the `shouldKick` decision.
- The flow's later dialog class and the code it sends by DM are left out.
- `raid_stats` (`main.py:6166-6191`) only reads counters for display, so it is left out.
- Every other command of the bot (economy, backups, broadcast, games other than the number game) is outside this core.


=== FILE: anti_spam.dfy ===
/** The per-guild configurable anti-spam check run in the background for every
    guild message (`handle_spam_detection`). Its window length and message
    limit come from the guild's settings; its `muted` flag is set after the
    first successful one-minute timeout and never cleared, so it sanctions a
    guild member at most once. */
module AntiSpam {
  import opened Wrappers
  import opened Clock
  import opened Window
  import opened Ids

  /** The guild settings the check reads: `anti_spam_enabled`,
      `anti_spam_messages` and `anti_spam_seconds`. */
  datatype GuildConfig = GuildConfig(enabled: bool, maxMessages: int, seconds: int)

  /** A guild row created on first use gets these column defaults. */
  const DefaultConfig: GuildConfig := GuildConfig(false, 5, 5)

  const TimeoutSeconds: int := 60

  /** Tracker entry for one guild member (the source keys it by the string
      `f"{guild}_{user}"`, which determines the pair since ids are integers). */
  datatype Entry = Entry(messages: seq<Instant>, muted: bool)

  const Fresh: Entry := Entry([], false)

  type Key = (GuildId, UserId)

  datatype Verdict =
    | Disabled                 // no settings row yet, or the check is switched off
    | Counted(count: nat)      // at or under the limit, or already sanctioned once
    | TimedOut(count: nat)     // log written and one-minute timeout applied
    | TimeoutFailed(count: nat) // over the limit but the log or the timeout failed

  /** One message against an enabled configuration: drop entries at least
      `seconds` old, append `now`, and sanction once above the limit.
      `sanctionOk` says whether the log write and timeout succeeded. */
  function Step(e: Entry, cfg: GuildConfig, now: Instant, sanctionOk: bool): (r: (Entry, Verdict))
    ensures r.0.messages == Retain(e.messages, AgeBelow(cfg.seconds), now) + [now]
    ensures !r.1.Disabled? && r.1.count == |r.0.messages|
    ensures (r.1.TimedOut? || r.1.TimeoutFailed?) <==> r.1.count > cfg.maxMessages && !e.muted
    ensures r.1.TimedOut? <==> r.1.count > cfg.maxMessages && !e.muted && sanctionOk
    ensures r.0.muted <==> e.muted || r.1.TimedOut?
  {
    var ms := Retain(e.messages, AgeBelow(cfg.seconds), now) + [now];
    var n := |ms|;
    if n > cfg.maxMessages && !e.muted then
      if sanctionOk then (Entry(ms, true), TimedOut(n)) else (Entry(ms, false), TimeoutFailed(n))
    else (Entry(ms, e.muted), Counted(n))
  }

  /** One guild message. `config` is the guild's settings row, `None` when the
      guild has none yet (a row with the defaults is then created, which has
      the check switched off). */
  function OnMessage(store: map<Key, Entry>, config: Option<GuildConfig>, g: GuildId, u: UserId,
                     now: Instant, sanctionOk: bool): (r: (map<Key, Entry>, Verdict))
    ensures r.1.Disabled? <==> config.None? || !config.value.enabled
    ensures r.1.Disabled? ==> r.0 == store
    ensures !r.1.Disabled? ==>
      (Lookup(r.0, (g, u), Fresh), r.1) == Step(Lookup(store, (g, u), Fresh), config.value, now, sanctionOk)
    ensures SameExcept(store, r.0, (g, u), Fresh)
  {
    var cfg := config.GetOr(DefaultConfig);
    if !cfg.enabled then (store, Disabled)
    else
      var s := Step(Lookup(store, (g, u), Fresh), cfg, now, sanctionOk);
      (store[(g, u) := s.0], s.1)
  }

  /** The `muted` flag is never cleared. */
  lemma MutedIsSticky(e: Entry, cfg: GuildConfig, now: Instant, ok: bool)
    requires e.muted
    ensures Step(e, cfg, now, ok).0.muted && !Step(e, cfg, now, ok).1.TimedOut?
  {
  }

  /** A message of one member's trace: the settings seen, the instant, and
      whether a sanction would succeed. */
  datatype Message = Message(config: Option<GuildConfig>, at: Instant, sanctionOk: bool)

  /** The member's entry after a trace, with how many timeouts it applied. */
  function Run(e: Entry, ms: seq<Message>): (r: (Entry, nat))
  {
    if |ms| == 0 then (e, 0)
    else
      var prev := Run(e, ms[..|ms| - 1]);
      var m := ms[|ms| - 1];
      var cfg := m.config.GetOr(DefaultConfig);
      if !cfg.enabled then prev
      else
        var s := Step(prev.0, cfg, m.at, m.sanctionOk);
        (s.0, prev.1 + (if s.1.TimedOut? then 1 else 0))
  }

  /** Over any trace a member is timed out at most once, and not at all if the
      entry was already marked; after a timeout the entry stays marked. */
  lemma {:induction false} AtMostOneTimeout(e: Entry, ms: seq<Message>)
    ensures Run(e, ms).1 <= (if e.muted then 0 else 1)
    ensures Run(e, ms).1 == 1 ==> Run(e, ms).0.muted
    ensures e.muted ==> Run(e, ms).0.muted
  {
    if |ms| > 0 {
      AtMostOneTimeout(e, ms[..|ms| - 1]);
      var prev := Run(e, ms[..|ms| - 1]);
      var m := ms[|ms| - 1];
      var cfg := m.config.GetOr(DefaultConfig);
      if cfg.enabled && prev.0.muted {
        MutedIsSticky(prev.0, cfg, m.at, m.sanctionOk);
      }
    }
  }
}

=== FILE: checkin.dfy ===
/** The daily check-in streak: the member's check-in dates sorted newest
    first, counting how many consecutive calendar days lead up to the newest
    one. Dates are day numbers (the source sorts `"%Y-%m-%d"` strings, whose
    order is the calendar order). */
module Checkin {

  type Day = int

  /** Newest first, as `sorted(..., reverse=True)` leaves them. */
  ghost predicate Descending(s: seq<Day>)
  {
    forall i, j :: 0 <= i < j < |s| ==> s[i] >= s[j]
  }

  function InsertDescending(x: Day, s: seq<Day>): (r: seq<Day>)
    requires Descending(s)
    ensures Descending(r)
    ensures |r| == |s| + 1
    ensures multiset(r) == multiset(s) + multiset{x}
  {
    if |s| == 0 || x >= s[0] then
      PrependDescending(x, s);
      [x] + s
    else
      var rest := InsertDescending(x, s[1..]);
      assert s == [s[0]] + s[1..];
      forall j | 0 <= j < |rest|
        ensures rest[j] <= s[0]
      {
        assert rest[j] in multiset(rest);
        if rest[j] != x {
          assert rest[j] in multiset(s[1..]);
          assert rest[j] in s[1..];
        }
      }
      PrependDescending(s[0], rest);
      [s[0]] + rest
  }

  /** A date no older than every date of a newest-first list can go in front. */
  lemma PrependDescending(x: Day, s: seq<Day>)
    requires Descending(s)
    requires forall j :: 0 <= j < |s| ==> s[j] <= x
    ensures Descending([x] + s)
  {
    var r := [x] + s;
    forall i, j | 0 <= i < j < |r|
      ensures r[i] >= r[j]
    {
      assert r[j] == s[j - 1];
      if i > 0 {
        assert r[i] == s[i - 1];
      }
    }
  }

  /** The check-in dates, newest first. */
  function SortDescending(s: seq<Day>): (r: seq<Day>)
    ensures Descending(r)
    ensures |r| == |s|
    ensures multiset(r) == multiset(s)
  {
    if |s| == 0 then []
    else
      assert s == [s[0]] + s[1..];
      InsertDescending(s[0], SortDescending(s[1..]))
  }

  /** Walk the newest-first list while each date is the day before the
      previous one; the streak is 1 plus the number of such steps. */
  function StreakOfSorted(d: seq<Day>): (n: nat)
    ensures n >= 1 && (|d| > 0 ==> n <= |d|)
    ensures |d| > 0 ==> forall k :: 0 <= k < n ==> d[k] == d[0] - k
    ensures 0 < n < |d| ==> d[n] != d[0] - n
  {
    if |d| <= 1 then 1
    else if d[1] == d[0] - 1 then 1 + StreakOfSorted(d[1..])
    else 1
  }

  /** The streak reported after a check-in, from all of the member's check-in
      dates (including the one just recorded). */
  function Streak(checkins: seq<Day>): (n: nat)
    ensures n >= 1
  {
    StreakOfSorted(SortDescending(checkins))
  }

  /** Without repeated dates the streak is exactly the run of consecutive days
      ending at the newest check-in: each of those days was checked in, and the
      day before the run was not. */
  lemma StreakIsConsecutiveRun(checkins: seq<Day>)
    requires |checkins| > 0
    requires Distinct(checkins)
    ensures RunEndingAt(checkins, Newest(checkins), Streak(checkins))
  {
    var d := SortDescending(checkins);
    SameMembers(d, checkins);
    SortedDistinctIsStrict(checkins);
    RunOfStrict(d, StreakOfSorted(d));
  }

  /** The newest check-in date. */
  function Newest(checkins: seq<Day>): (newest: Day)
    requires |checkins| > 0
    ensures newest in checkins
    ensures forall day :: day in checkins ==> day <= newest
  {
    var d := SortDescending(checkins);
    SameMembers(d, checkins);
    forall day | day in checkins
      ensures day <= d[0]
    {
      var j :| 0 <= j < |d| && d[j] == day;
      assert j == 0 || d[0] >= d[j];
    }
    d[0]
  }

  /** Exactly the n days up to and including `newest` occur in the check-ins:
      each of them was checked in, and the day before them was not. */
  ghost predicate RunEndingAt(checkins: seq<Day>, newest: Day, n: nat)
  {
    && (forall day :: newest - n < day <= newest ==> day in checkins)
    && newest - n !in checkins
  }

  ghost predicate StrictlyDescending(s: seq<Day>)
  {
    forall i, j :: 0 <= i < j < |s| ==> s[i] > s[j]
  }

  /** In a strictly decreasing list whose first n entries step down one day at
      a time and whose next entry does not, exactly the days of that run are
      present. */
  lemma RunOfStrict(d: seq<Day>, n: nat)
    requires StrictlyDescending(d)
    requires 1 <= n <= |d|
    requires forall k :: 0 <= k < n ==> d[k] == d[0] - k
    requires n < |d| ==> d[n] != d[0] - n
    ensures forall day :: d[0] - n < day <= d[0] ==> day in d
    ensures d[0] - n !in d
  {
    forall day | d[0] - n < day <= d[0]
      ensures day in d
    {
      var k := d[0] - day;
      assert d[k] == day;
    }
    forall j | 0 <= j < |d|
      ensures d[j] != d[0] - n
    {
      if j < n {
        assert d[j] == d[0] - j;
      } else if j > n {
        assert d[n - 1] == d[0] - (n - 1);
        assert d[j] < d[n] < d[n - 1];
      }
    }
  }

  /** Sequences with the same multiset have the same members. */
  lemma SameMembers(a: seq<Day>, b: seq<Day>)
    requires multiset(a) == multiset(b)
    ensures |a| == |b|
    ensures forall x :: x in a <==> x in b
  {
    assert |multiset(a)| == |multiset(b)|;
    forall x
      ensures x in a <==> x in b
    {
      assert x in a <==> x in multiset(a);
      assert x in b <==> x in multiset(b);
    }
  }

  /** Sorting distinct dates gives a strictly decreasing list. */
  lemma SortedDistinctIsStrict(checkins: seq<Day>)
    requires forall i, j :: 0 <= i < j < |checkins| ==> checkins[i] != checkins[j]
    ensures StrictlyDescending(SortDescending(checkins))
  {
    var d := SortDescending(checkins);
    forall i, j | 0 <= i < j < |d|
      ensures d[i] > d[j]
    {
      if d[i] == d[j] {
        RepeatCountsTwice(d, i, j);
        DistinctCountsOne(checkins, d[i]);
        assert false;
      }
    }
  }

  /** A value at two positions occurs at least twice. */
  lemma RepeatCountsTwice(s: seq<Day>, i: int, j: int)
    requires 0 <= i < j < |s| && s[i] == s[j]
    ensures multiset(s)[s[i]] >= 2
  {
    assert s == s[..j] + [s[j]] + s[j + 1..];
    assert s[..j][i] == s[i];
    assert s[i] in multiset(s[..j]);
  }

  /** In a list without repeats every value occurs at most once. */
  lemma {:induction false} DistinctCountsOne(s: seq<Day>, x: Day)
    requires forall i, j :: 0 <= i < j < |s| ==> s[i] != s[j]
    ensures multiset(s)[x] <= 1
  {
    if |s| > 0 {
      assert s == [s[0]] + s[1..];
      DistinctCountsOne(s[1..], x);
      if s[0] == x {
        assert x !in s[1..];
      }
    }
  }

  /** A repeated newest date ends the walk at once: with the newest date stored
      twice, the streak is 1 however many earlier consecutive days exist. */
  lemma RepeatedDateStopsStreak(d: seq<Day>)
    requires |d| >= 2 && d[1] == d[0]
    ensures StreakOfSorted(d) == 1
  {
  }

  ghost predicate Distinct(s: seq<Day>)
  {
    forall i, j :: 0 <= i < j < |s| ==> s[i] != s[j]
  }

  datatype Outcome = AlreadyCheckedIn | CheckedIn(streak: nat)

  /** A check-in for `today` by a member whose earlier check-in dates are
      `dates`: a second check-in on the same day is refused and records
      nothing; otherwise today is recorded and the streak is computed over all
      dates including it. */
  function CheckIn(dates: seq<Day>, today: Day): (r: (seq<Day>, Outcome))
    requires Distinct(dates)
    ensures today in dates <==> r.1 == AlreadyCheckedIn
    ensures today in dates ==> r.0 == dates
    ensures today !in dates ==> r.0 == dates + [today]
    ensures Distinct(r.0) && today in r.0
  {
    if today in dates then (dates, AlreadyCheckedIn)
    else
      var all := dates + [today];
      assert Distinct(all) by {
        forall i, j | 0 <= i < j < |all|
          ensures all[i] != all[j]
        {
          if j == |dates| {
            assert all[i] == dates[i] && dates[i] in dates;
          }
        }
      }
      (all, CheckedIn(Streak(all)))
  }

  /** The streak reported after checking in today, when no check-in lies in the
      future, is the number of consecutive days ending today that were all
      checked in. */
  lemma CheckInCountsRunEndingToday(dates: seq<Day>, today: Day)
    requires Distinct(dates)
    requires forall day :: day in dates ==> day <= today
    requires today !in dates
    ensures var r := CheckIn(dates, today);
            RunEndingAt(r.0, today, r.1.streak)
  {
    var all := CheckIn(dates, today).0;
    StreakIsConsecutiveRun(all);
    var newest := Newest(all);
    assert newest <= today && today <= newest;
  }

  /** At most one run length fits a given newest day. */
  lemma RunLengthUnique(checkins: seq<Day>, newest: Day, n: nat, m: nat)
    requires RunEndingAt(checkins, newest, n)
    requires RunEndingAt(checkins, newest, m)
    ensures n == m
  {
  }

  /** Checking in the day after the previous newest check-in extends the streak
      by exactly one. */
  lemma NextDayExtendsStreak(dates: seq<Day>, today: Day)
    requires Distinct(dates) && |dates| > 0
    requires Newest(dates) == today - 1
    ensures CheckIn(dates, today).1 == CheckedIn(Streak(dates) + 1)
  {
    var n := Streak(dates);
    StreakIsConsecutiveRun(dates);
    var all := CheckIn(dates, today).0;
    assert today !in dates;
    forall day | day in all
      ensures day <= today
    {
      if day != today {
        assert day in dates;
      }
    }
    CheckInCountsRunEndingToday(dates, today);
    assert RunEndingAt(all, today, n + 1) by {
      forall day | today - (n + 1) < day <= today
        ensures day in all
      {
        if day < today {
          assert day in dates;
        }
      }
      assert today - (n + 1) !in dates;
    }
    RunLengthUnique(all, today, CheckIn(dates, today).1.streak, n + 1);
  }
}

=== FILE: clock.dfy ===
/** Time as the detectors see it. The bot reads naive `datetime.now()` values;
    here an instant is a whole number of microseconds on that naive clock, so
    differences of instants are exactly the `timedelta` values of the source. */
module Clock {

  type Instant = int

  const MicrosPerSecond: int := 1_000_000
  const SecondsPerDay: int := 86400

  /** `timedelta(seconds=n)` in microseconds. */
  function Seconds(n: int): int
  {
    n * MicrosPerSecond
  }

  /** The `.seconds` attribute of a `timedelta` of `d` microseconds: the whole
      seconds left after taking out whole days, always in [0, 86400). */
  function SecondsField(d: int): (s: int)
    ensures 0 <= s < SecondsPerDay
    ensures 0 <= d < Seconds(SecondsPerDay) ==> Seconds(s) <= d < Seconds(s + 1)
  {
    (d / MicrosPerSecond) % SecondsPerDay
  }

  /** The `.days` attribute of a `timedelta` of `d` microseconds (rounded down). */
  function DaysField(d: int): (n: int)
    ensures n * Seconds(SecondsPerDay) <= d < (n + 1) * Seconds(SecondsPerDay)
  {
    d / Seconds(SecondsPerDay)
  }

  /** Timestamps in the order they were recorded never go backwards. */
  ghost predicate Sorted(ts: seq<Instant>)
  {
    forall i, j :: 0 <= i < j < |ts| ==> ts[i] <= ts[j]
  }

  /** Every recorded timestamp is at or before `now`. */
  ghost predicate NotAfter(ts: seq<Instant>, now: Instant)
  {
    forall i :: 0 <= i < |ts| ==> ts[i] <= now
  }

  /** `.seconds` agrees with the true elapsed whole seconds below one day and
      wraps around after: a difference of one day and `s` seconds reads as `s`. */
  lemma SecondsFieldWraps(s: int, frac: int)
    requires 0 <= s < SecondsPerDay && 0 <= frac < MicrosPerSecond
    ensures SecondsField(Seconds(s) + frac) == s
    ensures SecondsField(Seconds(SecondsPerDay + s) + frac) == s
  {
    var d := Seconds(SecondsPerDay + s) + frac;
    assert d == (SecondsPerDay + s) * MicrosPerSecond + frac;
    assert d / MicrosPerSecond == SecondsPerDay + s;
  }
}

=== FILE: engine.dfy ===
/** The event dispatch around the detectors: which detectors an event reaches,
    in which order, and which part of the state each event may change. The
    detectors keep disjoint state; a message from a muted user stops at the
    rate limiter and reaches no other detector. */
module Engine {
  import opened Wrappers
  import opened Clock
  import opened Ids
  import RateLimit
  import History
  import RaidState
  import RaidMessages
  import JoinGuard
  import AntiSpam
  import Verification

  datatype State = State(
    rate: map<UserId, RateLimit.Tracker>,
    history: map<UserId, History.Buffer>,
    raid: RaidState.State,
    antiSpam: map<AntiSpam.Key, AntiSpam.Entry>,
    verification: Verification.State
  )

  const Initial: State := State(map[], map[], RaidState.Initial, map[], Verification.Initial)

  /** A received message. `guild` is `None` for a direct message; `fromSelf`
      marks the bot's own messages. The handler reads the clock three times,
      with awaits (sleeps and sends) in between, so each detector gets its own
      instant (`main.py:1069`, `main.py:1201`, `main.py:841`). */
  datatype Message = Message(
    guild: Option<GuildId>,
    author: UserId,
    fromSelf: bool,
    authorIsBot: bool,
    content: string,
    at: Instant,        // the rate limiter's clock read
    raidAt: Instant,    // the raid guard's own read, after the rate limiter's awaits
    antiSpamAt: Instant // the background anti-spam task's read, when it runs
  )

  /** How the `try` block around one sanction ended. */
  datatype TryOutcome =
    | Completed                 // every call in the block went through
    | Raised                    // another exception: it is printed and the handler goes on
    | Forbidden(noticeSent: bool)
      // `discord.Forbidden`: the `except` posts a notice in the channel outside any
      // `try`, so when that send raises too, `on_message` ends right there

  /** Whether a failed sanction takes the rest of `on_message` with it. */
  predicate EndsHandler(o: TryOutcome)
  {
    o == Forbidden(false)
  }

  /** Results of the platform calls a message may cause. */
  datatype MessageOutcomes = MessageOutcomes(
    rateMute: TryOutcome,       // the rate limiter's ten-minute mute
    historyTimeout: TryOutcome, // the identical-message timeout and its announcement
    rateDeleteOk: bool,         // the raid guard's rate deletion and warning
    dupDeleteOk: bool,          // the raid guard's duplicate deletion and warning
    antiSpamOk: bool            // the configurable anti-spam log and timeout
  )

  datatype MessageVerdict =
    | Ignored                                     // own message or direct message
    | Muted(remaining: int)                       // deleted by the mute gate; nothing else runs
    | StoppedAfterRate(rate: RateLimit.Verdict)   // the refused mute's notice raised
    | StoppedAfterHistory(                        // the refused timeout's notice raised
        rate: RateLimit.Verdict,
        history: History.Verdict)
    | Checked(
        rate: RateLimit.Verdict,
        history: History.Verdict,
        raid: Option<RaidMessages.Verdict>,      // `None` for bot authors
        antiSpam: AntiSpam.Verdict)

  /** The rate limiter attempted a mute and its `try` block ended the handler. */
  predicate MuteEndsHandler(v: RateLimit.Verdict, o: TryOutcome)
  {
    v.Warned? && v.mute.MuteFailed? && EndsHandler(o)
  }

  /** The history check attempted a timeout and its `try` block ended the handler. */
  predicate TimeoutEndsHandler(v: History.Verdict, o: TryOutcome)
  {
    v.SuspendFailed? && EndsHandler(o)
  }

  /** `on_message` for the detectors, with `config` the guild's settings row
      read by the background anti-spam check. The detectors run in source
      order; the state a detector changed before the handler ends is kept, and
      the detectors after it never run. */
  function OnMessage(s: State, m: Message, config: Option<AntiSpam.GuildConfig>, o: MessageOutcomes)
    : (r: (State, MessageVerdict))
    ensures r.1.Ignored? <==> m.fromSelf || m.guild.None?
    ensures r.1.Ignored? ==> r.0 == s
    // the mute gate stops the message before every other detector
    ensures !r.1.Ignored? ==>
      (r.1.Muted? <==> RateLimit.Gated(Lookup(s.rate, m.author, RateLimit.Initial), m.at))
    ensures r.1.Muted? ==> r.0 == s
    ensures !r.1.Ignored? && !r.1.Muted? ==>
      var g := m.guild.value;
      var rl := RateLimit.OnMessage(s.rate, m.author, m.at, o.rateMute.Completed?);
      var hi := History.OnMessage(s.history, m.author, m.content, o.historyTimeout.Completed?);
      && r.1.rate == rl.1
      && (r.1.StoppedAfterRate? <==> MuteEndsHandler(rl.1, o.rateMute))
      && (r.1.StoppedAfterRate? ==> r.0 == s.(rate := rl.0))
      && (!r.1.StoppedAfterRate? ==> r.1.history == hi.1)
      && (!r.1.StoppedAfterRate? ==>
            (r.1.StoppedAfterHistory? <==> TimeoutEndsHandler(hi.1, o.historyTimeout)))
      && (r.1.StoppedAfterHistory? ==> r.0 == s.(rate := rl.0, history := hi.0))
    ensures r.1.Checked? ==>
      var g := m.guild.value;
      var rl := RateLimit.OnMessage(s.rate, m.author, m.at, o.rateMute.Completed?);
      var hi := History.OnMessage(s.history, m.author, m.content, o.historyTimeout.Completed?);
      var an := AntiSpam.OnMessage(s.antiSpam, config, g, m.author, m.antiSpamAt, o.antiSpamOk);
      && r.0.rate == rl.0 && r.0.history == hi.0
      && r.0.antiSpam == an.0 && r.1.antiSpam == an.1
      && (r.1.raid.None? <==> m.authorIsBot)
      && (m.authorIsBot ==> r.0.raid == s.raid)
      && (!m.authorIsBot ==>
            var ra := RaidMessages.OnMessage(s.raid, g, m.author, m.content, m.raidAt, o.rateDeleteOk, o.dupDeleteOk);
            r.0.raid == ra.0 && r.1.raid == Some(ra.1))
    // a handler that ends early leaves the raid guard and anti-spam untouched
    ensures !r.1.Checked? ==> r.0.raid == s.raid && r.0.antiSpam == s.antiSpam
    ensures r.0.verification == s.verification
  {
    if m.fromSelf || m.guild.None? then (s, Ignored)
    else
      var g := m.guild.value;
      var rl := RateLimit.OnMessage(s.rate, m.author, m.at, o.rateMute.Completed?);
      if rl.1.Suppressed? then
        assert s.rate[m.author := Lookup(s.rate, m.author, RateLimit.Initial)] == s.rate;
        (s, Muted(rl.1.remaining))
      else if MuteEndsHandler(rl.1, o.rateMute) then
        (s.(rate := rl.0), StoppedAfterRate(rl.1))
      else
        var hi := History.OnMessage(s.history, m.author, m.content, o.historyTimeout.Completed?);
        if TimeoutEndsHandler(hi.1, o.historyTimeout) then
          (s.(rate := rl.0, history := hi.0), StoppedAfterHistory(rl.1, hi.1))
        else
          var ra := if m.authorIsBot then (s.raid, None)
                    else
                      var x := RaidMessages.OnMessage(s.raid, g, m.author, m.content, m.raidAt,
                                                      o.rateDeleteOk, o.dupDeleteOk);
                      (x.0, Some(x.1));
          var an := AntiSpam.OnMessage(s.antiSpam, config, g, m.author, m.antiSpamAt, o.antiSpamOk);
          (State(rl.0, hi.0, ra.0, an.0, s.verification), Checked(rl.1, hi.1, ra.1, an.1))
  }

  /** The tenth identical body from an author the rate limiter lets through,
      when the timeout is refused and the refusal notice cannot be posted
      either: the body stays in the author's buffer, and neither the raid
      guard nor the anti-spam check sees the message. */
  lemma UnpostableRefusalSkipsLaterDetectors(s: State, m: Message, config: Option<AntiSpam.GuildConfig>,
                                             o: MessageOutcomes)
    requires !m.fromSelf && m.guild.Some? && m.content != ""
    requires !RateLimit.Gated(Lookup(s.rate, m.author, RateLimit.Initial), m.at)
    requires o.rateMute.Completed? && o.historyTimeout == Forbidden(false)
    requires History.Occurrences(History.Push(Lookup(s.history, m.author, []), m.content), m.content)
             >= History.RepeatLimit
    ensures var r := OnMessage(s, m, config, o);
            && r.1.StoppedAfterHistory?
            && r.1.history.SuspendFailed?
            && Lookup(r.0.history, m.author, []) == History.Push(Lookup(s.history, m.author, []), m.content)
            && r.0.raid == s.raid && r.0.antiSpam == s.antiSpam
  {
  }

  /** The other events the detectors react to. */
  datatype Event =
    | MemberJoined(guild: GuildId, at: Instant, createdAt: Instant, blacklisted: bool, kickOk: bool)
    | LedgerCleanup(key: RaidState.SpamKey)
    | ButtonPressed(guild: GuildId, user: UserId, at: Instant, pressAt: Instant, viewCreatedAt: Instant,
                    alreadyVerified: bool, newCode: string)
    | CodeSubmitted(guild: GuildId, user: UserId, correctCode: string, entered: string)
    | RaidConfigured(kind: string, value: int, allowed: bool)
    | RaidLogsCleared(guild: GuildId, allowed: bool)

  datatype EventVerdict =
    | Join(join: JoinGuard.Verdict)
    | CleanedUp
    | Press(press: Verification.PressVerdict)
    | Submit(submit: Verification.SubmitVerdict)
    | Configured(recognised: bool)
    | Cleared
    | Refused

  /** Each event changes only the state of the detector it is routed to. The
      two raid commands take effect only when `allowed`: sent from a guild by
      a bot admin; otherwise they are refused and change nothing. */
  function OnEvent(s: State, e: Event): (r: (State, EventVerdict))
    ensures r.0.rate == s.rate && r.0.history == s.history && r.0.antiSpam == s.antiSpam
    ensures e.MemberJoined? || e.LedgerCleanup? || e.RaidConfigured? || e.RaidLogsCleared?
            ==> r.0.verification == s.verification
    ensures e.ButtonPressed? || e.CodeSubmitted? ==> r.0.raid == s.raid
    ensures e.MemberJoined? ==>
      && r.1.Join?
      && (r.0.raid, r.1.join)
         == JoinGuard.OnJoin(s.raid, e.guild, e.at, e.createdAt, e.blacklisted, e.kickOk)
    ensures e.LedgerCleanup? ==> r.0.raid == RaidMessages.Cleanup(s.raid, e.key)
    ensures e.ButtonPressed? ==>
      && r.1.Press?
      && (r.0.verification, r.1.press)
         == Verification.Press(s.verification, e.guild, e.user, e.at, e.pressAt, e.viewCreatedAt, e.alreadyVerified, e.newCode)
    ensures e.CodeSubmitted? ==>
      && r.1.Submit?
      && (r.0.verification, r.1.submit)
         == Verification.Submit(s.verification, e.guild, e.user, e.correctCode, e.entered)
    ensures (e.RaidConfigured? || e.RaidLogsCleared?) && !e.allowed ==> r == (s, Refused)
    ensures e.RaidConfigured? && e.allowed ==>
      && r.1.Configured?
      && (r.0.raid.config, r.1.recognised) == RaidState.Configure(s.raid.config, e.kind, e.value)
      && r.0.raid == s.raid.(config := r.0.raid.config)
    ensures e.RaidLogsCleared? && e.allowed ==> r == (s.(raid := RaidState.ClearGuild(s.raid, e.guild)), Cleared)
  {
    match e
    case MemberJoined(g, at, createdAt, blacklisted, kickOk) =>
      var j := JoinGuard.OnJoin(s.raid, g, at, createdAt, blacklisted, kickOk);
      (s.(raid := j.0), Join(j.1))
    case LedgerCleanup(k) =>
      (s.(raid := RaidMessages.Cleanup(s.raid, k)), CleanedUp)
    case ButtonPressed(g, u, at, pressAt, created, verified, code) =>
      var p := Verification.Press(s.verification, g, u, at, pressAt, created, verified, code);
      (s.(verification := p.0), Press(p.1))
    case CodeSubmitted(g, u, correct, entered) =>
      var q := Verification.Submit(s.verification, g, u, correct, entered);
      (s.(verification := q.0), Submit(q.1))
    case RaidConfigured(_, _, false) => (s, Refused)
    case RaidLogsCleared(_, false) => (s, Refused)
    case RaidConfigured(kind, value, true) =>
      var c := RaidState.Configure(s.raid.config, kind, value);
      (s.(raid := s.raid.(config := c.0)), Configured(c.1))
    case RaidLogsCleared(g, true) =>
      (s.(raid := RaidState.ClearGuild(s.raid, g)), Cleared)
  }

  /** A user under a running mute can send any number of messages without
      changing any detector's state. */
  lemma {:induction false} MutedMessagesChangeNothing(s: State, ms: seq<Message>, config: Option<AntiSpam.GuildConfig>,
                                   o: MessageOutcomes, u: UserId, until: Instant)
    requires Lookup(s.rate, u, RateLimit.Initial).mutedUntil == Some(until)
    requires forall i :: 0 <= i < |ms| ==> ms[i].author == u && ms[i].at < until
    ensures RunMessages(s, ms, config, o) == s
  {
    if |ms| > 0 {
      MutedMessagesChangeNothing(s, ms[..|ms| - 1], config, o, u, until);
    }
  }

  /** The state after a sequence of messages seen with the same settings and outcomes. */
  function RunMessages(s: State, ms: seq<Message>, config: Option<AntiSpam.GuildConfig>, o: MessageOutcomes): State
  {
    if |ms| == 0 then s
    else OnMessage(RunMessages(s, ms[..|ms| - 1], config, o), ms[|ms| - 1], config, o).0
  }
}

=== FILE: guess_game.dfy ===
/** The number-guessing game: the bot picks a secret between 1 and 100 and
    the player has ten guesses, each answered with "higher" or "lower". Input
    that is not a number, or is outside 1..100, is answered but does not use
    up a guess. A minute of silence ends the game. The random secret is a
    parameter. No reply of the game sits in a `try` that catches Discord
    errors, so a reply that fails ends the command on the spot. */
module GuessGame {
  import opened Wrappers
  import opened Text

  const Low: int := 1
  const High: int := 100
  const MaxAttempts: nat := 10

  datatype Phase =
    | Playing
    | Won
    | Lost
    | TimedOut
    | Aborted    // a reply failed and the error left the game's loop

  datatype Game = Game(secret: int, attempts: nat, guesses: seq<int>, phase: Phase)

  datatype Reply =
    | NotPlaying
    | NotANumber
    | OutOfRange(guess: int)
    | Correct(attempts: nat)
    | Higher(remaining: nat)
    | Lower(remaining: nat)

  /** What a game in progress or finished always satisfies: every counted guess
      was in range and is recorded, at most ten were counted, a game still in
      play, lost or timed out has not seen the secret, a won game saw it last
      and only there, and a lost game used all ten guesses. */
  ghost predicate Valid(g: Game)
  {
    && Low <= g.secret <= High
    && g.attempts == |g.guesses| <= MaxAttempts
    && (forall i :: 0 <= i < |g.guesses| ==> Low <= g.guesses[i] <= High)
    && (g.phase != Won && g.phase != Aborted ==> g.secret !in g.guesses)
    && (g.phase == Playing ==> g.attempts < MaxAttempts)
    && (g.phase == Won ==> |g.guesses| > 0 && g.guesses[|g.guesses| - 1] == g.secret
                           && g.secret !in g.guesses[..|g.guesses| - 1])
    && (g.phase == Lost ==> g.attempts == MaxAttempts)
  }

  function Start(secret: int): (g: Game)
    requires Low <= secret <= High
    ensures Valid(g) && g.phase == Playing && g.guesses == []
  {
    Game(secret, 0, [], Playing)
  }

  /** One message from the player, answered with `r.1`; `replyOk` says
      whether that reply went through. A number in range is counted and
      recorded: equal to the secret wins, otherwise the reply says which way to
      go and how many guesses are left, and the tenth wrong guess loses. A
      reply that fails aborts the game, after the guess has been recorded. */
  function Guess(g: Game, content: string, replyOk: bool): (r: (Game, Reply))
    requires Valid(g)
    ensures Valid(r.0) && r.0.secret == g.secret
    ensures g.phase != Playing ==> r == (g, NotPlaying)
    ensures r.0.phase == Aborted <==> g.phase == Aborted || (g.phase == Playing && !replyOk)
    ensures r.1 == NotANumber <==> g.phase == Playing && ParseInt(content).None?
    ensures r.1.OutOfRange? <==> g.phase == Playing && ParseInt(content).Some?
                                  && !(Low <= ParseInt(content).value <= High)
    ensures r.1 == NotANumber || r.1.OutOfRange? ==> r.0.(phase := g.phase) == g
    ensures replyOk && (r.1 == NotANumber || r.1.OutOfRange?) ==> r.0 == g
    ensures r.1.Correct? <==> g.phase == Playing && ParseInt(content) == Some(g.secret)
    ensures r.0.phase == Won <==> g.phase == Won || (r.1.Correct? && replyOk)
    ensures r.1.Correct? ==> r.1.attempts == r.0.attempts
    ensures r.1.Higher? ==> ParseInt(content).value < g.secret
    ensures r.1.Lower? ==> ParseInt(content).value > g.secret
    ensures r.1.Higher? || r.1.Lower? || r.1.Correct? ==>
              r.0.guesses == g.guesses + [ParseInt(content).value]
    ensures r.1.Higher? ==> r.1.remaining == MaxAttempts - r.0.attempts
    ensures r.1.Lower? ==> r.1.remaining == MaxAttempts - r.0.attempts
    ensures r.0.phase == Lost <==>
              g.phase == Lost || (replyOk && (r.1.Higher? || r.1.Lower?) && r.0.attempts == MaxAttempts)
  {
    if g.phase != Playing then (g, NotPlaying)
    else
      var answered := match ParseInt(content)
        case None => (g, NotANumber)
        case Some(n) =>
          if n < Low || n > High then (g, OutOfRange(n))
          else Count(g, n);
      if replyOk then answered else (answered.0.(phase := Aborted), answered.1)
  }

  /** A number in range, counted against the player's ten guesses and
      recorded: the secret wins, and otherwise the reply points towards it and
      the tenth miss loses. */
  function Count(g: Game, n: int): (r: (Game, Reply))
    requires Valid(g) && g.phase == Playing && Low <= n <= High
    ensures Valid(r.0) && r.0.secret == g.secret
    ensures r.0.attempts == g.attempts + 1 && r.0.guesses == g.guesses + [n]
    ensures r.1.Correct? <==> n == g.secret
    ensures r.1.Correct? ==> r.0.phase == Won && r.1.attempts == r.0.attempts
    ensures r.1.Higher? <==> n < g.secret
    ensures r.1.Lower? <==> n > g.secret
    ensures r.1.Higher? || r.1.Lower? ==> r.1.remaining == MaxAttempts - r.0.attempts
    ensures r.0.phase == Lost <==> n != g.secret && r.0.attempts == MaxAttempts
  {
    var attempts := g.attempts + 1;
    var guesses := g.guesses + [n];
    assert guesses[..|guesses| - 1] == g.guesses;
    assert forall i :: 0 <= i < |guesses| ==> Low <= guesses[i] <= High by {
      forall i | 0 <= i < |guesses|
        ensures Low <= guesses[i] <= High
      {
        if i < |g.guesses| {
          assert guesses[i] == g.guesses[i];
        }
      }
    }
    if n == g.secret then
      (Game(g.secret, attempts, guesses, Won), Correct(attempts))
    else
      assert g.secret !in guesses;
      var phase := if attempts == MaxAttempts then Lost else Playing;
      var reply := if n < g.secret then Higher(MaxAttempts - attempts) else Lower(MaxAttempts - attempts);
      (Game(g.secret, attempts, guesses, phase), reply)
  }

  /** A minute without a message ends a game still in play. */
  function Timeout(g: Game): (g': Game)
    requires Valid(g)
    ensures Valid(g')
    ensures g.phase == Playing ==> g' == g.(phase := TimedOut)
    ensures g.phase != Playing ==> g' == g
  {
    if g.phase == Playing then g.(phase := TimedOut) else g
  }

  /** The player typing each number of `ns` in turn, as `str()` writes it,
      every reply going through. */
  function Play(g: Game, ns: seq<int>): (g': Game)
    requires Valid(g)
    ensures Valid(g') && g'.secret == g.secret
    decreases |ns|
  {
    if |ns| == 0 then g else Play(Guess(g, Show(ns[0]), true).0, ns[1..])
  }

  /** Guesses that all miss, while guesses remain, are all recorded; the game
      is lost exactly when the tenth one is used. */
  lemma {:induction false} MissesAreCounted(g: Game, ns: seq<int>)
    requires Valid(g) && g.phase == Playing
    requires forall i :: 0 <= i < |ns| ==> Low <= ns[i] <= High && ns[i] != g.secret
    requires g.attempts + |ns| <= MaxAttempts
    ensures Play(g, ns).guesses == g.guesses + ns
    ensures Play(g, ns).phase == (if g.attempts + |ns| == MaxAttempts then Lost else Playing)
    decreases |ns|
  {
    if |ns| == 0 {
      assert g.guesses + ns == g.guesses;
    } else {
      var g1 := Guess(g, Show(ns[0]), true).0;
      Miss(g, ns[0]);
      if g1.attempts == MaxAttempts {
        assert |ns| == 1 && ns[1..] == [];
        assert g.guesses + [ns[0]] == g.guesses + ns;
      } else {
        MissesAreCounted(g1, ns[1..]);
        AppendFirst(g.guesses, ns);
      }
    }
  }

  lemma AppendFirst(a: seq<int>, s: seq<int>)
    requires |s| > 0
    ensures a + [s[0]] + s[1..] == a + s
  {
    assert s == [s[0]] + s[1..];
  }

  /** A typed number in range that is not the secret uses up one guess. */
  lemma Miss(g: Game, n: int)
    requires Valid(g) && g.phase == Playing
    requires Low <= n <= High && n != g.secret
    ensures var g' := Guess(g, Show(n), true).0;
            && g'.guesses == g.guesses + [n]
            && g'.attempts == g.attempts + 1
            && g'.phase == (if g'.attempts == MaxAttempts then Lost else Playing)
  {
    ParseShown(n);
  }

  /** Ten misses in a row from the start lose the game, with the ten guesses
      shown. */
  lemma TenMissesLose(secret: int, ns: seq<int>)
    requires Low <= secret <= High
    requires |ns| == MaxAttempts
    requires forall i :: 0 <= i < |ns| ==> Low <= ns[i] <= High && ns[i] != secret
    ensures Play(Start(secret), ns).phase == Lost
    ensures Play(Start(secret), ns).guesses == ns
  {
    MissesAreCounted(Start(secret), ns);
    assert [] + ns == ns;
  }

  /** Once the game is over, aborted included, nothing the player types
      changes it. */
  lemma {:induction false} FinishedGameIgnoresInput(g: Game, ns: seq<int>)
    requires Valid(g) && g.phase != Playing
    ensures Play(g, ns) == g
    decreases |ns|
  {
    if |ns| > 0 {
      FinishedGameIgnoresInput(g, ns[1..]);
    }
  }

  /** A failed reply ends the game whatever was typed: the game is aborted
      with the guess (if one was counted) recorded, and nothing typed
      afterwards changes it. */
  lemma {:induction false} FailedReplyAborts(g: Game, content: string, ns: seq<int>)
    requires Valid(g) && g.phase == Playing
    ensures var g' := Guess(g, content, false).0;
            && g'.phase == Aborted
            && Play(g', ns) == g'
  {
    FinishedGameIgnoresInput(Guess(g, content, false).0, ns);
  }
}

=== FILE: history.dfy ===
/** Repeated-identical-message detection: each author's last 50 message
    bodies, oldest first, and a 7 day timeout once the current body appears
    ten times among them. */
module History {
  import opened Wrappers
  import opened Ids

  const Capacity: nat := 50
  const RepeatLimit: nat := 10
  const SuspensionDays: nat := 7

  type Content = string

  /** One author's recent bodies, as a `deque(maxlen=50)`. */
  type Buffer = s: seq<Content> | |s| <= Capacity

  /** Append to a bounded deque: when full, the oldest body falls out. */
  function Push(h: Buffer, c: Content): (r: Buffer)
    ensures |r| == if |h| < Capacity then |h| + 1 else Capacity
    ensures r[|r| - 1] == c
    ensures r[..|r| - 1] == (if |h| < Capacity then h else h[1..])
  {
    var s := h + [c];
    if |s| > Capacity then s[1..] else s
  }

  /** How many bodies in the buffer equal `c` (`sum(1 for m in history if m == c)`). */
  function Occurrences(h: seq<Content>, c: Content): nat
  {
    multiset(h)[c]
  }

  datatype Verdict =
    | Ignored                     // fewer than ten copies, or an empty body
    | Suspended(count: nat)       // timeout and announcement went through; the buffer is emptied
    | SuspendFailed(count: nat)   // the timeout or its announcement raised; the buffer is kept

  /** One message of `c`. `timeoutOk` says whether the whole sanction went
      through: the 7 day timeout and then its announcement in the channel. The
      buffer is cleared only after both, so a timeout whose announcement fails
      leaves the buffer as it is. */
  function Step(h: Buffer, c: Content, timeoutOk: bool): (r: (Buffer, Verdict))
    // every body, empty or not, is recorded first
    ensures r.1.Suspended? <==> c != "" && Occurrences(Push(h, c), c) >= RepeatLimit && timeoutOk
    ensures r.1.SuspendFailed? <==> c != "" && Occurrences(Push(h, c), c) >= RepeatLimit && !timeoutOk
    ensures !r.1.Ignored? ==> r.1.count == Occurrences(Push(h, c), c)
    ensures r.1.Suspended? ==> r.0 == []
    ensures !r.1.Suspended? ==> r.0 == Push(h, c)
  {
    var h1 := Push(h, c);
    var n := Occurrences(h1, c);
    if c != "" && n >= RepeatLimit then
      if timeoutOk then ([], Suspended(n)) else (h1, SuspendFailed(n))
    else (h1, Ignored)
  }

  /** Pushing a body adds one copy of it and, when full, loses one copy of the
      oldest body. */
  lemma PushCounts(h: Buffer, c: Content)
    ensures multiset(Push(h, c)) == (if |h| < Capacity then multiset(h) else multiset(h[1..])) + multiset{c}
  {
    var r := Push(h, c);
    assert r == r[..|r| - 1] + [r[|r| - 1]];
  }

  /** The count seen by a message never exceeds the copies already held plus one. */
  lemma OccurrencesAfterPush(h: Buffer, c: Content)
    ensures Occurrences(Push(h, c), c) <= Occurrences(h, c) + 1
    ensures |h| < Capacity ==> Occurrences(Push(h, c), c) == Occurrences(h, c) + 1
  {
    PushCounts(h, c);
    if |h| >= Capacity {
      assert h == [h[0]] + h[1..];
      assert multiset(h) == multiset{h[0]} + multiset(h[1..]);
    }
  }

  /** After a suspension has emptied the buffer, the next identical message
      counts one copy and does not trigger again. */
  lemma NoRetriggerAfterClear(h: Buffer, c: Content, ok1: bool, ok2: bool)
    requires Step(h, c, ok1).1.Suspended?
    ensures Occurrences(Push(Step(h, c, ok1).0, c), c) == 1
    ensures Step(Step(h, c, ok1).0, c, ok2).1.Ignored?
  {
    assert Push([], c) == [c];
  }

  /** The buffer after `k` more copies of `c`, none of which trigger. */
  function Repeat(h: Buffer, c: Content, k: nat): Buffer
  {
    if k == 0 then h else Push(Repeat(h, c, k - 1), c)
  }

  /** `k` copies of `c`. */
  function Copies(c: Content, k: nat): (r: seq<Content>)
    ensures |r| == k
  {
    if k == 0 then [] else Copies(c, k - 1) + [c]
  }

  lemma {:induction false} CopiesCount(c: Content, k: nat)
    ensures Occurrences(Copies(c, k), c) == k
  {
    if k > 0 {
      CopiesCount(c, k - 1);
    }
  }

  /** How many of the oldest bodies have fallen out after `k` more pushes. */
  function Dropped(h: Buffer, k: nat): nat
  {
    if |h| + k <= Capacity then 0 else |h| + k - Capacity
  }

  /** Up to ten identical messages keep the newest of the earlier bodies and
      append their copies, the oldest bodies falling out once the buffer is full. */
  lemma {:induction false} RepeatShape(h: Buffer, c: Content, k: nat)
    requires k <= RepeatLimit
    ensures Dropped(h, k) <= |h|
    ensures Repeat(h, c, k) == h[Dropped(h, k)..] + Copies(c, k)
  {
    if k > 0 {
      RepeatShape(h, c, k - 1);
      var d := Dropped(h, k - 1);
      var prev := Repeat(h, c, k - 1);
      assert |prev| == |h| - d + (k - 1);
      if |prev| < Capacity {
        assert Dropped(h, k) == d;
        assert Repeat(h, c, k) == h[d..] + Copies(c, k) by {
          PushWithRoom(prev, c);
          AppendCopy(h[d..], c, k);
        }
      } else {
        assert Dropped(h, k) == d + 1 && d < |h|;
        assert Repeat(h, c, k) == h[d + 1..] + Copies(c, k) by {
          PushWhenFull(prev, c);
          DropOldest(h, d, Copies(c, k - 1));
          AppendCopy(h[d + 1..], c, k);
        }
      }
    }
  }

  lemma PushWithRoom(h: Buffer, c: Content)
    requires |h| < Capacity
    ensures Push(h, c) == h + [c]
  {
  }

  lemma PushWhenFull(h: Buffer, c: Content)
    requires |h| == Capacity
    ensures Push(h, c) == h[1..] + [c]
  {
  }

  lemma DropOldest(h: seq<Content>, d: nat, tail: seq<Content>)
    requires d < |h|
    ensures (h[d..] + tail)[1..] == h[d + 1..] + tail
  {
  }

  lemma AppendCopy(front: seq<Content>, c: Content, k: nat)
    requires k > 0
    ensures front + Copies(c, k - 1) + [c] == front + Copies(c, k)
  {
  }

  /** Pushing up to ten copies of a body into a buffer holding none of it
      leaves exactly that many copies, the buffer growing up to its capacity. */
  lemma RepeatCounts(h: Buffer, c: Content, k: nat)
    requires Occurrences(h, c) == 0 && k <= RepeatLimit
    ensures Occurrences(Repeat(h, c, k), c) == k
    ensures |Repeat(h, c, k)| == if |h| + k <= Capacity then |h| + k else Capacity
  {
    RepeatShape(h, c, k);
    CopiesCount(c, k);
    var d := Dropped(h, k);
    assert multiset(h[d..])[c] == 0 by {
      assert h == h[..d] + h[d..];
    }
    assert multiset(Repeat(h, c, k)) == multiset(h[d..]) + multiset(Copies(c, k));
  }

  /** Starting from any buffer holding no copy of `c`, even a full one, the
      k-th identical message sees exactly k copies: the first nine pass and the
      tenth triggers. */
  lemma TenthCopyTriggers(h: Buffer, c: Content, k: nat, ok: bool)
    requires c != "" && Occurrences(h, c) == 0
    requires 1 <= k <= RepeatLimit
    ensures Occurrences(Repeat(h, c, k), c) == k
    ensures |Repeat(h, c, k)| == if |h| + k <= Capacity then |h| + k else Capacity
    ensures k < RepeatLimit ==> Step(Repeat(h, c, k - 1), c, ok).1.Ignored?
    ensures k == RepeatLimit ==> !Step(Repeat(h, c, k - 1), c, ok).1.Ignored?
  {
    RepeatCounts(h, c, k);
    var prev := Repeat(h, c, k - 1);
    assert Push(prev, c) == Repeat(h, c, k);
  }

  /** Per-author store of buffers; an author never seen reads as empty. */
  function OnMessage(store: map<UserId, Buffer>, author: UserId, c: Content, timeoutOk: bool)
    : (r: (map<UserId, Buffer>, Verdict))
    ensures Lookup(r.0, author, []) == Step(Lookup(store, author, []), c, timeoutOk).0
    ensures r.1 == Step(Lookup(store, author, []), c, timeoutOk).1
    ensures SameExcept(store, r.0, author, [])
  {
    var s := Step(Lookup(store, author, []), c, timeoutOk);
    (store[author := s.0], s.1)
  }
}

=== FILE: join_guard.dfy ===
/** The join-burst guard of `on_member_join`: a blacklisted joiner is banned
    before anything is recorded; otherwise the join goes into the guild's
    ten-minute ledger and, above `MAX_JOINS_PER_10MIN`, the joiner is kicked,
    with a reason that depends on the account's age. */
module JoinGuard {
  import opened Wrappers
  import opened Clock
  import opened Window
  import opened Ids
  import opened RaidState

  const JoinWindowSeconds: int := 600

  datatype KickReason = NewAccountBurst | JoinRateBurst

  datatype Verdict =
    | Blacklisted                                   // ban attempted; nothing recorded
    | Welcomed(count: nat)                          // normal join log
    | Kicked(reason: KickReason, count: nat)        // kicked and announced; the join log is skipped
    | KickFailed(reason: KickReason, count: nat)    // the kick or its announcement raised; the join log still runs

  /** Whether the ordinary "member joined" log entry is written. */
  predicate JoinLogged(v: Verdict)
  {
    v.Welcomed? || v.KickFailed?
  }

  /** `(now - created_at).days`: whole days since the account was made. */
  function AccountAgeDays(now: Instant, createdAt: Instant): int
  {
    DaysField(now - createdAt)
  }

  /** One member joining guild `g`. `blacklisted` is the result of the
      blacklist lookup, `createdAt` the account's creation instant, and
      `kickOk` whether a kick, if attempted, went through together with its
      notice in the guild's system channel: a kick whose notice fails still
      falls through to the ordinary join log. */
  function OnJoin(s: State, g: GuildId, now: Instant, createdAt: Instant,
                  blacklisted: bool, kickOk: bool): (r: (State, Verdict))
    ensures blacklisted <==> r.1.Blacklisted?
    ensures blacklisted ==> r.0 == s
    ensures !blacklisted ==>
      && JoinsOf(r.0, g) == Window.Retain(JoinsOf(s, g) + [now], SecondsFieldBelow(JoinWindowSeconds), now)
      && r.1.count == |JoinsOf(r.0, g)|
    ensures forall h :: h != g ==> JoinsOf(r.0, h) == JoinsOf(s, h)
    ensures r.0.config == s.config && r.0.messageTimes == s.messageTimes && r.0.ledger == s.ledger
    // a kick is decided exactly when the ledger is above the limit
    ensures !blacklisted ==> ((r.1.Kicked? || r.1.KickFailed?) <==> r.1.count > s.config.maxJoins)
    ensures r.1.Kicked? || r.1.KickFailed? ==>
      (r.1.reason == NewAccountBurst <==> AccountAgeDays(now, createdAt) < s.config.minAccountAgeDays)
    ensures r.1.Kicked? || r.1.KickFailed? ==> (r.1.Kicked? <==> kickOk)
    // the ordinary join log is skipped only after a successful kick
    ensures JoinLogged(r.1) <==> !blacklisted && !r.1.Kicked?
  {
    if blacklisted then (s, Blacklisted)
    else
      var joins := Window.Retain(JoinsOf(s, g) + [now], SecondsFieldBelow(JoinWindowSeconds), now);
      var s1 := s.(joinTimes := s.joinTimes[g := joins]);
      var n := |joins|;
      if n > s.config.maxJoins then
        var reason := if AccountAgeDays(now, createdAt) < s.config.minAccountAgeDays
                      then NewAccountBurst else JoinRateBurst;
        (s1, if kickOk then Kicked(reason, n) else KickFailed(reason, n))
      else
        (s1, Welcomed(n))
  }

  /** A join always stays in its own window, since its age is zero. */
  lemma JoinIsRecorded(s: State, g: GuildId, now: Instant, createdAt: Instant, kickOk: bool)
    ensures now in JoinsOf(OnJoin(s, g, now, createdAt, false, kickOk).0, g)
  {
  }

  /** With at least `MAX_JOINS_PER_10MIN` joins already recorded in the last
      ten minutes, the next joiner is kicked whatever the account's age. */
  lemma BurstKicksNextJoiner(s: State, g: GuildId, now: Instant, createdAt: Instant, kickOk: bool)
    requires |JoinsOf(s, g)| >= s.config.maxJoins
    requires forall t :: t in JoinsOf(s, g) ==> 0 <= now - t < Seconds(JoinWindowSeconds)
    ensures var v := OnJoin(s, g, now, createdAt, false, kickOk).1;
            (v.Kicked? || v.KickFailed?) && v.count == |JoinsOf(s, g)| + 1
  {
    var ts := JoinsOf(s, g) + [now];
    forall i | 0 <= i < |ts|
      ensures Keeps(SecondsFieldBelow(JoinWindowSeconds), now, ts[i])
    {
      if i < |JoinsOf(s, g)| {
        assert ts[i] in JoinsOf(s, g);
      }
      SecondsFieldAgreesWithinADay(now, ts[i], JoinWindowSeconds);
    }
    RetainAllKept(ts, SecondsFieldBelow(JoinWindowSeconds), now);
  }

  /** A join exactly one day and `d` seconds after an earlier one, `d` under
      ten minutes, still finds the earlier join in the ledger: the window tests
      `timedelta.seconds`, which drops whole days. */
  lemma DayOldJoinStillCounts(s: State, g: GuildId, now: Instant, createdAt: Instant, d: int, kickOk: bool)
    requires 0 <= d < JoinWindowSeconds
    requires JoinsOf(s, g) == [now - Seconds(SecondsPerDay + d)]
    ensures OnJoin(s, g, now, createdAt, false, kickOk).1.count == 2
  {
    SecondsFieldKeepsDayOld(now, d, JoinWindowSeconds);
    var earlier := now - Seconds(SecondsPerDay + d);
    assert [earlier] + [now] == [earlier, now];
    RetainAllKept([earlier, now], SecondsFieldBelow(JoinWindowSeconds), now);
  }
}

=== FILE: raid_messages.dfy ===
/** The anti-raid message checks in `on_message` (authors that are not bots):
    a per-guild, per-author one-minute message window, then the
    duplicate-content ledger keyed by guild, author and lower-cased body,
    and the one-shot cleanup that removes a ledger key a minute later. */
module RaidMessages {
  import opened Wrappers
  import opened Clock
  import opened Window
  import opened Ids
  import opened RaidState

  const MessageWindowSeconds: int := 60
  const CleanupDelaySeconds: int := 60
  const MinLedgerLength: int := 3

  /** ASCII lower-casing, the part of `str.lower()` this model covers. */
  function LowerChar(ch: char): (r: char)
    ensures 'A' <= ch <= 'Z' ==> r as int == ch as int + 32
    ensures !('A' <= ch <= 'Z') ==> r == ch
    ensures !('A' <= r <= 'Z')
  {
    if 'A' <= ch <= 'Z' then (ch as int + 32) as char else ch
  }

  function Lower(s: string): (r: string)
    ensures |r| == |s|
    ensures forall i :: 0 <= i < |s| ==> r[i] == LowerChar(s[i])
  {
    if |s| == 0 then "" else [LowerChar(s[0])] + Lower(s[1..])
  }

  /** Lower-casing twice is lower-casing once. */
  lemma LowerIdempotent(s: string)
    ensures Lower(Lower(s)) == Lower(s)
  {
  }

  datatype Duplicate =
    | NotChecked                 // a raid action was taken, or the body has at most 3 characters
    | Counted(count: int)        // the key's count went up, below the threshold
    | Deleted(count: int)        // at or above the threshold: message deleted, key removed
    | DeleteFailed(count: int)   // at or above the threshold, but the deletion failed

  datatype Verdict = Verdict(
    windowCount: nat,       // messages of this author in the guild's one-minute window
    overRate: bool,         // the window is above `MAX_MSGS_PER_MINUTE`
    rateDeleted: bool,      // ... and the message was deleted with a warning
    duplicate: Duplicate,
    scheduleCleanup: bool   // a one-minute cleanup of the ledger key was started
  )

  /** The window after recording `now`: entries whose `.seconds` age is under 60. */
  function RecordMessage(s: State, g: GuildId, a: UserId, now: Instant): (r: State)
    ensures r.config == s.config && r.joinTimes == s.joinTimes && r.ledger == s.ledger
    ensures MessagesOf(r, g, a)
         == Window.Retain(MessagesOf(s, g, a) + [now], SecondsFieldBelow(MessageWindowSeconds), now)
    ensures forall h, b :: (h, b) != (g, a) ==> MessagesOf(r, h, b) == MessagesOf(s, h, b)
  {
    var w := Window.Retain(MessagesOf(s, g, a) + [now], SecondsFieldBelow(MessageWindowSeconds), now);
    var inner := Lookup(s.messageTimes, g, map[]);
    s.(messageTimes := s.messageTimes[g := inner[a := w]])
  }

  /** One message from a non-bot author. `rateDeleteOk` and `dupDeleteOk` say
      whether the deletion and warning for each check went through. */
  function OnMessage(s: State, g: GuildId, a: UserId, content: string, now: Instant,
                     rateDeleteOk: bool, dupDeleteOk: bool): (r: (State, Verdict))
    ensures r.0.config == s.config && r.0.joinTimes == s.joinTimes
    ensures r.0.messageTimes == RecordMessage(s, g, a, now).messageTimes
    ensures r.1.windowCount == |MessagesOf(r.0, g, a)|
    ensures r.1.overRate <==> r.1.windowCount > s.config.maxMessages
    ensures r.1.rateDeleted <==> r.1.overRate && rateDeleteOk
    // the ledger is only consulted when no raid action was taken and the body is long enough
    ensures !r.1.duplicate.NotChecked? <==> !r.1.rateDeleted && |Lower(content)| > MinLedgerLength
    ensures r.1.duplicate.NotChecked? ==> r.0.ledger == s.ledger && !r.1.scheduleCleanup
    ensures !r.1.duplicate.NotChecked? ==>
      var k := (g, a, Lower(content));
      && r.1.duplicate.count == Count(s, k) + 1
      && (r.1.duplicate.Deleted? <==> r.1.duplicate.count >= s.config.spamThreshold && dupDeleteOk)
      && (r.1.duplicate.DeleteFailed? <==> r.1.duplicate.count >= s.config.spamThreshold && !dupDeleteOk)
      && (r.1.duplicate.Deleted? ==> r.0.ledger == s.ledger - {k})
      && (!r.1.duplicate.Deleted? ==> r.0.ledger == s.ledger[k := r.1.duplicate.count])
      && (r.1.scheduleCleanup <==> k in r.0.ledger && r.0.ledger[k] == 1)
  {
    var s1 := RecordMessage(s, g, a, now);
    var n := |MessagesOf(s1, g, a)|;
    var over := n > s.config.maxMessages;
    var rateDeleted := over && rateDeleteOk;
    var lowered := Lower(content);
    if !rateDeleted && |lowered| > MinLedgerLength then
      var k := (g, a, lowered);
      var c := Count(s, k) + 1;
      if c >= s.config.spamThreshold && dupDeleteOk then
        (s1.(ledger := s.ledger - {k}), Verdict(n, over, rateDeleted, Deleted(c), false))
      else
        var dup := if c >= s.config.spamThreshold then DeleteFailed(c) else Counted(c);
        (s1.(ledger := s.ledger[k := c]), Verdict(n, over, rateDeleted, dup, c == 1))
    else
      (s1, Verdict(n, over, rateDeleted, NotChecked, false))
  }

  /** The deferred cleanup: remove the key if it is still there. */
  function Cleanup(s: State, k: SpamKey): (r: State)
    ensures r.config == s.config && r.joinTimes == s.joinTimes && r.messageTimes == s.messageTimes
    ensures k !in r.ledger
    ensures forall j :: j != k ==> Count(r, j) == Count(s, j) && (j in r.ledger <==> j in s.ledger)
    ensures k !in s.ledger ==> r == s
  {
    if k in s.ledger then s.(ledger := s.ledger - {k}) else s
  }

  /** Running the cleanup a second time, or after the trigger already removed
      the key, changes nothing. */
  lemma CleanupIdempotent(s: State, k: SpamKey)
    ensures Cleanup(Cleanup(s, k), k) == Cleanup(s, k)
  {
  }

  /** A cleanup is started only for a key whose count has just become 1, so at
      most once per lifetime of a key in the ledger. */
  lemma CleanupOnlyOnFirstOccurrence(s: State, g: GuildId, a: UserId, content: string, now: Instant,
                                     ok1: bool, ok2: bool)
    requires OnMessage(s, g, a, content, now, ok1, ok2).1.scheduleCleanup
    ensures Count(s, (g, a, Lower(content))) == 0
  {
  }

  /** Once the key has been removed, by the trigger or by the cleanup, the next
      long-enough copy that is not rate-limited starts again from a count of 1. */
  lemma FreshCountAfterRemoval(s: State, g: GuildId, a: UserId, content: string, now: Instant,
                               ok1: bool, ok2: bool)
    requires (g, a, Lower(content)) !in s.ledger
    requires |Lower(content)| > MinLedgerLength
    requires !OnMessage(s, g, a, content, now, ok1, ok2).1.rateDeleted
    ensures OnMessage(s, g, a, content, now, ok1, ok2).1.duplicate.count == 1
  {
  }

  /** A message sent one day and `d` seconds after an earlier one, with `d`
      under a minute, still finds the earlier one in its window: the window
      tests `timedelta.seconds`, which drops whole days. */
  lemma DayOldMessageStillCounts(s: State, g: GuildId, a: UserId, now: Instant, d: int)
    requires 0 <= d < MessageWindowSeconds
    requires MessagesOf(s, g, a) == [now - Seconds(SecondsPerDay + d)]
    ensures MessagesOf(RecordMessage(s, g, a, now), g, a) == [now - Seconds(SecondsPerDay + d), now]
  {
    SecondsFieldKeepsDayOld(now, d, MessageWindowSeconds);
    var earlier := now - Seconds(SecondsPerDay + d);
    assert [earlier] + [now] == [earlier, now];
    RetainAllKept([earlier, now], SecondsFieldBelow(MessageWindowSeconds), now);
  }
}

=== FILE: raid_state.dfy ===
/** State of the anti-raid guard: its four adjustable thresholds, the
    per-guild join ledger, the per-guild, per-author message windows and the
    duplicate-content ledger, with the two admin commands that change them. */
module RaidState {
  import opened Wrappers
  import opened Clock
  import opened Ids

  /** The module-level thresholds `MAX_JOINS_PER_10MIN`, `MAX_MSGS_PER_MINUTE`,
      `SPAM_THRESHOLD` and `MIN_ACCOUNT_AGE_DAYS`. */
  datatype RaidConfig = RaidConfig(
    maxJoins: int,
    maxMessages: int,
    spamThreshold: int,
    minAccountAgeDays: int
  )

  const DefaultConfig: RaidConfig := RaidConfig(5, 5, 3, 7)

  /** Key of the duplicate-content ledger: guild, author and lower-cased body. */
  type SpamKey = (GuildId, UserId, string)

  datatype State = State(
    config: RaidConfig,
    joinTimes: map<GuildId, seq<Instant>>,
    messageTimes: map<GuildId, map<UserId, seq<Instant>>>,
    ledger: map<SpamKey, int>
  )

  const Initial: State := State(DefaultConfig, map[], map[], map[])

  /** The join instants recorded for a guild. */
  function JoinsOf(s: State, g: GuildId): seq<Instant>
  {
    Lookup(s.joinTimes, g, [])
  }

  /** The message instants recorded for an author in a guild. */
  function MessagesOf(s: State, g: GuildId, a: UserId): seq<Instant>
  {
    Lookup(Lookup(s.messageTimes, g, map[]), a, [])
  }

  /** The ledger count for a key; a missing key reads as zero. */
  function Count(s: State, k: SpamKey): int
  {
    Lookup(s.ledger, k, 0)
  }

  /** The four thresholds the configuration command can set. */
  datatype Setting = Joins | Messages | Repeats | AccountAge

  /** The command's type argument for each threshold. */
  function Name(s: Setting): string
  {
    match s
    case Joins => "加入"
    case Messages => "訊息"
    case Repeats => "重複"
    case AccountAge => "帳齡"
  }

  function Field(c: RaidConfig, s: Setting): int
  {
    match s
    case Joins => c.maxJoins
    case Messages => c.maxMessages
    case Repeats => c.spamThreshold
    case AccountAge => c.minAccountAgeDays
  }

  /** The threshold a type argument names, if any. */
  function Parse(kind: string): (r: Option<Setting>)
    ensures r.Some? ==> Name(r.value) == kind
  {
    if kind == "加入" then Some(Joins)
    else if kind == "訊息" then Some(Messages)
    else if kind == "重複" then Some(Repeats)
    else if kind == "帳齡" then Some(AccountAge)
    else None
  }

  /** Every threshold's name is recognised as that threshold. */
  lemma ParseName(s: Setting)
    ensures Parse(Name(s)) == Some(s)
  {
  }

  /** The configuration command: a recognised type argument sets exactly that
      threshold to `value` and leaves the other three alone; anything else
      changes nothing. The second component says whether it was recognised. */
  function Configure(c: RaidConfig, kind: string, value: int): (r: (RaidConfig, bool))
    ensures r.1 <==> Parse(kind).Some?
    ensures !r.1 ==> r.0 == c
    ensures r.1 ==> Field(r.0, Parse(kind).value) == value
    ensures r.1 ==> forall s :: s != Parse(kind).value ==> Field(r.0, s) == Field(c, s)
  {
    match Parse(kind)
    case None => (c, false)
    case Some(Joins) => (c.(maxJoins := value), true)
    case Some(Messages) => (c.(maxMessages := value), true)
    case Some(Repeats) => (c.(spamThreshold := value), true)
    case Some(AccountAge) => (c.(minAccountAgeDays := value), true)
  }

  /** The clear-logs command for guild `g`: its join ledger and all its
      message windows become empty and its duplicate-ledger keys go; every
      other guild's records and the thresholds stay as they were. */
  function ClearGuild(s: State, g: GuildId): (r: State)
    ensures r.config == s.config
    ensures JoinsOf(r, g) == [] && forall a :: MessagesOf(r, g, a) == []
    ensures forall k: SpamKey :: k in r.ledger ==> k.0 != g
    ensures forall h :: h != g ==> JoinsOf(r, h) == JoinsOf(s, h)
    ensures forall h, a :: h != g ==> MessagesOf(r, h, a) == MessagesOf(s, h, a)
    ensures forall k: SpamKey :: k.0 != g ==> Count(r, k) == Count(s, k) && (k in r.ledger <==> k in s.ledger)
  {
    State(
      s.config,
      if g in s.joinTimes then s.joinTimes[g := []] else s.joinTimes,
      if g in s.messageTimes then s.messageTimes[g := map[]] else s.messageTimes,
      map k | k in s.ledger && k.0 != g :: s.ledger[k]
    )
  }

  /** Clearing a guild twice is the same as clearing it once. */
  lemma ClearGuildIdempotent(s: State, g: GuildId)
    ensures ClearGuild(ClearGuild(s, g), g) == ClearGuild(s, g)
  {
  }
}

=== FILE: rate_limit.dfy ===
/** The global per-user message-rate limiter at the top of `on_message`:
    a 20 second window of message instants, a per-episode "already warned"
    flag, a cumulative warning counter, and a 10 minute mute after the third
    warning. */
module RateLimit {
  import opened Wrappers
  import opened Clock
  import opened Window
  import opened Ids

  const WindowSeconds: int := 20
  const MessageThreshold: int := 10
  const WarningsForMute: int := 3
  const MuteSeconds: int := 600

  datatype Tracker = Tracker(
    messages: seq<Instant>,     // instants of recent messages, oldest first
    warningTriggered: bool,     // a warning was already sent in the current episode
    warnings: nat,              // warnings accumulated across episodes
    mutedUntil: Option<Instant> // end of the current mute, if any
  )

  /** The tracker a user gets on their first message. */
  const Initial: Tracker := Tracker([], false, 0, None)

  datatype MuteOutcome = NoMute | MuteApplied(until: Instant) | MuteFailed

  /** What the limiter decides for one message. */
  datatype Verdict =
    | Suppressed(remaining: int)          // muted: delete, tell the remaining time, stop
    | Passed(count: nat)                  // the message stands; `count` messages in the window
    | Warned(count: nat, mute: MuteOutcome) // delete and warn; possibly mute

  /** A mute is in force: the message is deleted and nothing is recorded. */
  predicate Gated(t: Tracker, now: Instant)
  {
    t.mutedUntil.Some? && now < t.mutedUntil.value
  }

  /** Clearing an expired mute re-arms detection but keeps the warning count. */
  function Rearm(t: Tracker, now: Instant): (r: Tracker)
    ensures r.messages == t.messages && r.warnings == t.warnings
    ensures !Gated(t, now) ==> r.mutedUntil.None?
    ensures t.mutedUntil.Some? && !Gated(t, now) ==> !r.warningTriggered
    ensures t.mutedUntil.None? || Gated(t, now) ==> r == t
  {
    if t.mutedUntil.Some? && now >= t.mutedUntil.value then
      t.(mutedUntil := None, warningTriggered := false)
    else t
  }

  /** One message at `now`; `timeoutOk` says whether the platform accepted the
      mute when one is attempted. */
  function Step(t: Tracker, now: Instant, timeoutOk: bool): (r: (Tracker, Verdict))
    // the mute gate: nothing changes while muted
    ensures Gated(t, now) <==> r.1.Suppressed?
    ensures Gated(t, now) ==> r.0 == t && r.1.remaining == t.mutedUntil.value - now
    // the window records the message and drops entries more than 20 s old from the front
    ensures !Gated(t, now) ==> r.0.messages == EvictStale(t.messages + [now], now, WindowSeconds)
    ensures !Gated(t, now) ==> r.1.count == |r.0.messages|
    // a warning happens exactly when the window is over threshold in an unwarned episode
    ensures !Gated(t, now) ==>
      (r.1.Warned? <==> |r.0.messages| > MessageThreshold && !Rearm(t, now).warningTriggered)
    ensures r.0.warnings == t.warnings + (if r.1.Warned? then 1 else 0)
    // the third warning mutes for ten minutes when the platform accepts it
    ensures r.1.Warned? ==>
      (r.1.mute.MuteApplied? <==> t.warnings + 1 >= WarningsForMute && timeoutOk)
    ensures r.1.Warned? ==>
      (r.1.mute.MuteFailed? <==> t.warnings + 1 >= WarningsForMute && !timeoutOk)
    ensures r.1.Warned? && r.1.mute.MuteApplied? ==>
      r.1.mute.until == now + Seconds(MuteSeconds)
      && r.0.mutedUntil == Some(now + Seconds(MuteSeconds)) && !r.0.warningTriggered
    ensures r.1.Warned? && !r.1.mute.MuteApplied? ==>
      r.0.warningTriggered && r.0.mutedUntil.None?
    // outside a warning the flag is kept while over threshold and cleared at or below it
    ensures r.1.Passed? ==> r.0.mutedUntil.None?
    ensures r.1.Passed? && |r.0.messages| > MessageThreshold ==> r.0.warningTriggered
    ensures r.1.Passed? && |r.0.messages| <= MessageThreshold ==> !r.0.warningTriggered
  {
    if Gated(t, now) then
      (t, Suppressed(t.mutedUntil.value - now))
    else
      var t1 := Rearm(t, now);
      var window := EvictStale(t1.messages + [now], now, WindowSeconds);
      var n := |window|;
      if n > MessageThreshold && !t1.warningTriggered then
        var w := t1.warnings + 1;
        if w >= WarningsForMute && timeoutOk then
          (Tracker(window, false, w, Some(now + Seconds(MuteSeconds))),
           Warned(n, MuteApplied(now + Seconds(MuteSeconds))))
        else
          (Tracker(window, true, w, None),
           Warned(n, if w >= WarningsForMute then MuteFailed else NoMute))
      else if n <= MessageThreshold && t1.warningTriggered then
        (t1.(messages := window, warningTriggered := false), Passed(n))
      else
        (t1.(messages := window), Passed(n))
  }

  /** The first message after a mute has run out clears the mute and the
      episode flag and keeps the warning count; unless it is itself over
      threshold it is then an ordinary message. */
  lemma MuteExpiryRearms(t: Tracker, now: Instant, timeoutOk: bool)
    requires t.mutedUntil.Some? && now >= t.mutedUntil.value
    ensures !Step(t, now, timeoutOk).1.Suppressed?
    ensures Rearm(t, now) == t.(mutedUntil := None, warningTriggered := false)
    ensures |Step(t, now, timeoutOk).0.messages| <= MessageThreshold ==>
      Step(t, now, timeoutOk).0 == Tracker(Step(t, now, timeoutOk).0.messages, false, t.warnings, None)
  {
  }

  /** With instants recorded in order, the window after a message holds
      exactly the earlier instants at most 20 s old, in order, then `now`;
      an entry exactly 20 s old stays. */
  lemma WindowContents(t: Tracker, now: Instant, timeoutOk: bool)
    requires Sorted(t.messages) && NotAfter(t.messages, now)
    requires !Gated(t, now)
    ensures Step(t, now, timeoutOk).0.messages
         == Retain(t.messages, AgeAtMost(WindowSeconds), now) + [now]
  {
    var ts := t.messages + [now];
    forall i, j | 0 <= i < j < |ts|
      ensures ts[i] <= ts[j]
    {
      if j == |ts| - 1 {
        assert ts[i] == t.messages[i];
      } else {
        assert ts[i] == t.messages[i] && ts[j] == t.messages[j];
      }
    }
    EvictStaleIsRetainWhenSorted(ts, now, WindowSeconds);
    RecordThenRetain(t.messages, AgeAtMost(WindowSeconds), now);
  }

  /** Everything left in the window after a message is within 20 s of it. */
  lemma WindowIsRecent(t: Tracker, now: Instant, timeoutOk: bool)
    requires Sorted(t.messages) && NotAfter(t.messages, now)
    requires !Gated(t, now)
    ensures forall m :: m in Step(t, now, timeoutOk).0.messages ==> now - Seconds(WindowSeconds) <= m <= now
  {
    WindowContents(t, now, timeoutOk);
    var kept := Retain(t.messages, AgeAtMost(WindowSeconds), now);
    forall m | m in kept + [now]
      ensures now - Seconds(WindowSeconds) <= m <= now
    {
      if m != now {
        assert m in kept;
        assert m in t.messages && Keeps(AgeAtMost(WindowSeconds), now, m);
        var i :| 0 <= i < |t.messages| && t.messages[i] == m;
      }
    }
  }

  /** Recording in time order keeps the window in time order. */
  lemma StepKeepsOrder(t: Tracker, now: Instant, timeoutOk: bool)
    requires Sorted(t.messages) && NotAfter(t.messages, now)
    ensures Sorted(Step(t, now, timeoutOk).0.messages)
    ensures NotAfter(Step(t, now, timeoutOk).0.messages, now)
  {
    if !Gated(t, now) {
      WindowContents(t, now, timeoutOk);
      RetainSorted(t.messages, AgeAtMost(WindowSeconds), now);
      var kept := Retain(t.messages, AgeAtMost(WindowSeconds), now);
      var r := kept + [now];
      forall i, j | 0 <= i < j < |r|
        ensures r[i] <= r[j]
      {
        assert r[i] in kept || i == |r| - 1;
        if j == |r| - 1 {
          assert r[i] == kept[i] && kept[i] in t.messages;
        } else {
          assert r[i] == kept[i] && r[j] == kept[j];
        }
      }
      forall i | 0 <= i < |r|
        ensures r[i] <= now
      {
        if i < |kept| {
          assert r[i] == kept[i] && kept[i] in t.messages;
        }
      }
    }
  }

  /** A message of a trace: when it arrives and whether a mute attempted for
      it would succeed. */
  datatype Message = Message(at: Instant, timeoutOk: bool)

  /** The tracker after a sequence of messages. */
  function Run(t: Tracker, ms: seq<Message>): Tracker
  {
    if |ms| == 0 then t
    else
      var last := ms[|ms| - 1];
      Step(Run(t, ms[..|ms| - 1]), last.at, last.timeoutOk).0
  }

  /** How many of the messages in a trace drew a warning. */
  function WarningsIssued(t: Tracker, ms: seq<Message>): nat
  {
    if |ms| == 0 then 0
    else
      var last := ms[|ms| - 1];
      var v := Step(Run(t, ms[..|ms| - 1]), last.at, last.timeoutOk).1;
      WarningsIssued(t, ms[..|ms| - 1]) + (if v.Warned? then 1 else 0)
  }

  /** The warning counter never goes down: over any trace it grows by exactly
      the number of warnings issued. */
  lemma {:induction false} WarningsAccumulate(t: Tracker, ms: seq<Message>)
    ensures Run(t, ms).warnings == t.warnings + WarningsIssued(t, ms)
    ensures Run(t, ms).warnings >= t.warnings
  {
    if |ms| > 0 {
      WarningsAccumulate(t, ms[..|ms| - 1]);
    }
  }

  /** While a warned episode lasts (every message still sees more than ten in
      its window and no mute is running) no further warning is issued. */
  lemma {:induction false} NoRewarnWithinEpisode(t: Tracker, ms: seq<Message>)
    requires t.warningTriggered && t.mutedUntil.None?
    requires forall k :: 0 < k <= |ms| ==> |Run(t, ms[..k]).messages| > MessageThreshold
    ensures WarningsIssued(t, ms) == 0
    ensures Run(t, ms).warnings == t.warnings
    ensures Run(t, ms).warningTriggered && Run(t, ms).mutedUntil.None?
  {
    if |ms| > 0 {
      var prefix := ms[..|ms| - 1];
      forall k | 0 < k <= |prefix|
        ensures |Run(t, prefix[..k]).messages| > MessageThreshold
      {
        assert prefix[..k] == ms[..k];
      }
      NoRewarnWithinEpisode(t, prefix);
      assert ms[..|ms|] == ms;
    }
  }

  /** The arrival instants of a trace. */
  function Instants(ms: seq<Message>): (ts: seq<Instant>)
    ensures |ts| == |ms| && forall i :: 0 <= i < |ms| ==> ts[i] == ms[i].at
  {
    seq(|ms|, i requires 0 <= i < |ms| => ms[i].at)
  }

  /** Every message of the trace is at most 20 s after its first one. */
  ghost predicate SpanWithinWindow(ms: seq<Message>)
  {
    forall i :: 0 <= i < |ms| ==> ms[i].at - ms[0].at <= Seconds(WindowSeconds)
  }

  lemma InstantsLast(ms: seq<Message>)
    requires |ms| > 0
    ensures Instants(ms) == Instants(ms[..|ms| - 1]) + [ms[|ms| - 1].at]
  {
  }

  /** Eleven messages spread over at most 20 seconds, in time order. */
  ghost predicate ElevenWithinWindow(ms: seq<Message>)
  {
    && |ms| == MessageThreshold + 1
    && (forall i, j :: 0 <= i < j < |ms| ==> ms[i].at <= ms[j].at)
    && ms[|ms| - 1].at - ms[0].at <= Seconds(WindowSeconds)
  }

  /** A message that finds an unwarned, unmuted tracker whose oldest entry is
      within 20 s keeps every entry; at or under the threshold it passes. */
  lemma QuietStep(xs: seq<Instant>, at: Instant, timeoutOk: bool)
    requires |xs| < MessageThreshold
    requires |xs| > 0 ==> at - xs[0] <= Seconds(WindowSeconds)
    ensures Step(Tracker(xs, false, 0, None), at, timeoutOk)
         == (Tracker(xs + [at], false, 0, None), Passed(|xs| + 1))
  {
    var t := Tracker(xs, false, 0, None);
    var ts := xs + [at];
    assert ts[0] == if |xs| > 0 then xs[0] else at;
    assert EvictStale(ts, at, WindowSeconds) == ts;
    assert !Gated(t, at) && Rearm(t, at) == t;
  }

  /** Up to ten messages within 20 s of the first pass quietly and are all kept. */
  lemma {:induction false} QuietRun(ms: seq<Message>)
    requires |ms| <= MessageThreshold && SpanWithinWindow(ms)
    ensures Run(Initial, ms) == Tracker(Instants(ms), false, 0, None)
    ensures WarningsIssued(Initial, ms) == 0
  {
    if |ms| > 0 {
      var prev := ms[..|ms| - 1];
      var last := ms[|ms| - 1];
      assert SpanWithinWindow(prev) by {
        forall i | 0 <= i < |prev|
          ensures prev[i].at - prev[0].at <= Seconds(WindowSeconds)
        {
          assert prev[i] == ms[i] && prev[0] == ms[0];
        }
      }
      QuietRun(prev);
      var xs := Instants(prev);
      InstantsLast(ms);
      assert |xs| > 0 ==> xs[0] == ms[0].at;
      QuietStep(xs, last.at, last.timeoutOk);
    }
  }

  /** Eleven messages within 20 seconds from a fresh tracker draw exactly one
      warning, on the eleventh, and leave the episode marked as warned. */
  lemma FirstEpisodeWarnsOnEleventh(ms: seq<Message>)
    requires ElevenWithinWindow(ms)
    ensures WarningsIssued(Initial, ms[..MessageThreshold]) == 0
    ensures WarningsIssued(Initial, ms) == 1
    ensures Run(Initial, ms).warnings == 1 && Run(Initial, ms).warningTriggered
  {
    var prev := ms[..MessageThreshold];
    assert ms[..|ms| - 1] == prev;
    var t := Tracker(Instants(prev), false, 0, None);
    assert Run(Initial, prev) == t && WarningsIssued(Initial, prev) == 0 by {
      assert SpanWithinWindow(prev) by {
        forall i | 0 <= i < |prev|
          ensures prev[i].at - prev[0].at <= Seconds(WindowSeconds)
        {
          assert prev[i] == ms[i] && prev[0] == ms[0];
          assert ms[i].at <= ms[|ms| - 1].at;
        }
      }
      QuietRun(prev);
    }
    var last := ms[|ms| - 1];
    var ts := Instants(prev) + [last.at];
    assert Step(t, last.at, last.timeoutOk) == (Tracker(ts, true, 1, None), Warned(|ts|, NoMute)) by {
      assert EvictStale(ts, last.at, WindowSeconds) == ts by {
        assert ts[0] == ms[0].at;
      }
      assert !Gated(t, last.at) && Rearm(t, last.at) == t;
    }
  }

  /** Per-user store of trackers; a user never seen reads as `Initial`. */
  function OnMessage(store: map<UserId, Tracker>, user: UserId, now: Instant, timeoutOk: bool)
    : (r: (map<UserId, Tracker>, Verdict))
    ensures Lookup(r.0, user, Initial) == Step(Lookup(store, user, Initial), now, timeoutOk).0
    ensures r.1 == Step(Lookup(store, user, Initial), now, timeoutOk).1
    ensures SameExcept(store, r.0, user, Initial)
  {
    var s := Step(Lookup(store, user, Initial), now, timeoutOk);
    (store[user := s.0], s.1)
  }
}

=== FILE: shutdown.dfy ===
/** The developer command that schedules the bot to shut down at a given
    wall-clock time: it reads "HH:MM" or a bare hour, checks the range, picks
    the next time the clock shows that hour and minute, refuses waits under ten
    seconds, and replaces any shutdown scheduled before. */
module Shutdown {
  import opened Wrappers
  import opened Clock
  import opened Text

  const MaxHour: int := 23
  const MaxMinute: int := 59
  const MinWaitSeconds: int := 10

  /** One day in microseconds. */
  const DayMicros: int := Seconds(SecondsPerDay)

  /** Microseconds since the last midnight of the naive clock. */
  function TimeOfDay(t: Instant): (d: int)
    ensures 0 <= d < DayMicros
  {
    t % DayMicros
  }

  /** The offset of hour:minute from midnight, in microseconds. */
  function ClockOffset(hour: int, minute: int): int
  {
    Seconds(hour * 3600 + minute * 60)
  }

  /** The hour and minute typed: with a colon, exactly two integers around it
      (anything else fails to unpack); without one, a bare hour and minute 0. */
  function ParseTime(text: string): (r: Option<(int, int)>)
    ensures ':' !in text && r.Some? ==> r.value.1 == 0
    ensures ':' in text && |Split(text, ':')| != 2 ==> r.None?
  {
    if ':' in text then
      var parts := Split(text, ':');
      if |parts| != 2 then None
      else
        match (ParseInt(parts[0]), ParseInt(parts[1]))
        case (Some(h), Some(m)) => Some((h, m))
        case _ => None
    else
      match ParseInt(text)
      case Some(h) => Some((h, 0))
      case None => None
  }

  predicate InRange(hour: int, minute: int)
  {
    0 <= hour <= MaxHour && 0 <= minute <= MaxMinute
  }

  /** Today's hour:minute with seconds cleared, or tomorrow's when that moment
      is not after `now`: the first instant after `now` whose clock reads
      hour:minute:00. */
  function NextOccurrence(now: Instant, hour: int, minute: int): (target: Instant)
    requires InRange(hour, minute)
    ensures now < target <= now + DayMicros
    ensures TimeOfDay(target) == ClockOffset(hour, minute)
  {
    var today := now - TimeOfDay(now) + ClockOffset(hour, minute);
    if today <= now then today + DayMicros else today
  }

  datatype Verdict =
    | Denied
    | Unparsable
    | OutOfRange(hour: int, minute: int)
    | TooSoon(target: Instant)
    | Scheduled(target: Instant, wait: int)
    | ConfirmFailed(target: Instant)    // the earlier shutdown was cancelled, then the confirmation raised

  /** The command: `pending` is the shutdown already scheduled, if any;
      `authorized` is whether the caller may use dangerous commands, and
      `confirmOk` whether the confirmation reply went through. A valid time
      cancels the pending shutdown before that reply is sent and creates the
      new one only after it, so a reply that raises leaves no shutdown at all. */
  function Schedule(pending: Option<Instant>, authorized: bool, text: string, now: Instant, confirmOk: bool)
    : (r: (Option<Instant>, Verdict))
    ensures r.1 == Denied <==> !authorized
    ensures r.1 == Unparsable <==> authorized && ParseTime(text).None?
    ensures r.1.OutOfRange? <==> authorized && ParseTime(text).Some? && !InRange(ParseTime(text).value.0, ParseTime(text).value.1)
    ensures r.1.Scheduled? || r.1.TooSoon? || r.1.ConfirmFailed? ==>
              && authorized && ParseTime(text).Some?
              && TimeOfDay(r.1.target) == ClockOffset(ParseTime(text).value.0, ParseTime(text).value.1)
              && now < r.1.target <= now + DayMicros
    ensures r.1.TooSoon? ==> r.1.target - now < Seconds(MinWaitSeconds)
    ensures r.1.Scheduled? ==> r.1.wait == r.1.target - now >= Seconds(MinWaitSeconds)
    ensures r.1.ConfirmFailed? ==> r.1.target - now >= Seconds(MinWaitSeconds)
    // a time far enough away is scheduled exactly when the confirmation goes through
    ensures r.1.Scheduled? || r.1.ConfirmFailed? ==> (r.1.Scheduled? <==> confirmOk)
    ensures r.1.Scheduled? ==> r.0 == Some(r.1.target)
    ensures r.1.ConfirmFailed? ==> r.0 == None
    ensures !r.1.Scheduled? && !r.1.ConfirmFailed? ==> r.0 == pending
  {
    if !authorized then (pending, Denied)
    else
      match ParseTime(text)
      case None => (pending, Unparsable)
      case Some((h, m)) =>
        if !InRange(h, m) then (pending, OutOfRange(h, m))
        else
          var target := NextOccurrence(now, h, m);
          var wait := target - now;
          if wait < Seconds(MinWaitSeconds) then (pending, TooSoon(target))
          else if confirmOk then (Some(target), Scheduled(target, wait))
          else (None, ConfirmFailed(target))
  }

  /** No instant strictly between `now` and the chosen target shows the
      requested hour and minute: the target is the nearest one. */
  lemma NextOccurrenceIsFirst(now: Instant, hour: int, minute: int, t: Instant)
    requires InRange(hour, minute)
    requires now < t < NextOccurrence(now, hour, minute)
    ensures TimeOfDay(t) != ClockOffset(hour, minute)
  {
    var mid := now - TimeOfDay(now);
    var off := ClockOffset(hour, minute);
    var today := mid + off;
    ClockOfWithinDay(mid, now);
    if today > now {
      ClockOfWithinDay(mid, t);
    } else if t < mid + DayMicros {
      ClockOfWithinDay(mid, t);
    } else {
      ClockOfWithinDay(mid + DayMicros, t);
    }
  }

  /** Within the day that starts at midnight `mid`, the clock reads the time
      elapsed since `mid`. */
  lemma ClockOfWithinDay(mid: Instant, t: Instant)
    requires mid % DayMicros == 0
    requires mid <= t < mid + DayMicros
    ensures TimeOfDay(t) == t - mid
  {
    var q := mid / DayMicros;
    assert t == q * DayMicros + (t - mid);
  }

  /** Typing the hour and minute as `str()` writes them, with a colon between,
      asks for exactly that hour and minute. */
  lemma ParseTimeShown(hour: int, minute: int)
    ensures ParseTime(Show(hour) + ":" + Show(minute)) == Some((hour, minute))
  {
    var a := Show(hour);
    var b := Show(minute);
    var text := a + ":" + b;
    ShowHasNoColon(hour);
    ShowHasNoColon(minute);
    assert text == Join([a, b], ':') by {
      assert [a, b][1..] == [b];
    }
    SplitJoin([a, b], ':');
    assert text[|a|] == ':';
    ParseShown(hour);
    ParseShown(minute);
  }

  /** A bare hour asks for that hour, on the hour. */
  lemma ParseTimeBareHour(hour: int)
    ensures ParseTime(Show(hour)) == Some((hour, 0))
  {
    ShowHasNoColon(hour);
    ParseShown(hour);
  }

  lemma ShowHasNoColon(n: int)
    ensures ':' !in Show(n)
  {
    var s := Show(n);
    forall i | 0 <= i < |s|
      ensures s[i] != ':'
    {
      if n < 0 && i > 0 {
        assert s[i] == ShowNat(-n)[i - 1];
      }
    }
  }

  /** Three colon-separated numbers are refused, not read as hour and minute. */
  lemma ThreeFieldsUnparsable(pending: Option<Instant>, now: Instant, a: int, b: int, c: int, confirmOk: bool)
    ensures Schedule(pending, true, Show(a) + ":" + Show(b) + ":" + Show(c), now, confirmOk) == (pending, Unparsable)
  {
    var parts := [Show(a), Show(b), Show(c)];
    ShowHasNoColon(a);
    ShowHasNoColon(b);
    ShowHasNoColon(c);
    var text := Show(a) + ":" + Show(b) + ":" + Show(c);
    assert Join(parts[1..], ':') == Show(b) + ":" + Show(c) by {
      assert parts[1..][1..] == [Show(c)];
    }
    assert text == Join(parts, ':');
    SplitJoin(parts, ':');
    assert text[|Show(a)|] == ':';
  }

  /** Every valid "HH:MM" is accepted, and scheduled at that clock time unless
      that time comes within the next ten seconds or the confirmation fails. */
  lemma ValidTimeIsScheduled(pending: Option<Instant>, hour: int, minute: int, now: Instant, confirmOk: bool)
    requires InRange(hour, minute)
    ensures var r := Schedule(pending, true, Show(hour) + ":" + Show(minute), now, confirmOk);
            var target := NextOccurrence(now, hour, minute);
            && (target - now >= Seconds(MinWaitSeconds) && confirmOk ==> r == (Some(target), Scheduled(target, target - now)))
            && (target - now >= Seconds(MinWaitSeconds) && !confirmOk ==> r == (None, ConfirmFailed(target)))
            && (target - now < Seconds(MinWaitSeconds) ==> r == (pending, TooSoon(target)))
  {
    ParseTimeShown(hour, minute);
    ScheduleParsed(pending, Show(hour) + ":" + Show(minute), now, hour, minute, confirmOk);
  }

  /** An authorized request whose text reads as an in-range hour and minute is
      decided by the wait until that time's next occurrence and by whether the
      confirmation goes through, nothing else. */
  lemma ScheduleParsed(pending: Option<Instant>, text: string, now: Instant, hour: int, minute: int, confirmOk: bool)
    requires ParseTime(text) == Some((hour, minute)) && InRange(hour, minute)
    ensures var r := Schedule(pending, true, text, now, confirmOk);
            var target := NextOccurrence(now, hour, minute);
            && (target - now >= Seconds(MinWaitSeconds) && confirmOk ==> r == (Some(target), Scheduled(target, target - now)))
            && (target - now >= Seconds(MinWaitSeconds) && !confirmOk ==> r == (None, ConfirmFailed(target)))
            && (target - now < Seconds(MinWaitSeconds) ==> r == (pending, TooSoon(target)))
  {
  }
}

=== FILE: text.dfy ===
/** The two pieces of Python text handling the commands rely on: `int()` of a
    string, and `str.split` on one separator character. */
module Text {
  import opened Wrappers

  /** Whitespace that `int()` ignores around a number, within ASCII: space,
      tab through carriage return, and the separators U+001C to U+001F. */
  predicate IsSpace(c: char)
  {
    c == ' ' || '\t' <= c <= '\r' || '\U{1C}' <= c <= '\U{1F}'
  }

  predicate IsDigit(c: char)
  {
    '0' <= c <= '9'
  }

  function DigitValue(c: char): (d: nat)
    requires IsDigit(c)
    ensures d < 10
  {
    (c as int) - ('0' as int)
  }

  function DigitChar(d: nat): (c: char)
    requires d < 10
    ensures IsDigit(c) && DigitValue(c) == d
  {
    ('0' as int + d) as char
  }

  /** Drops leading whitespace. */
  function TrimLeft(s: string): (r: string)
    ensures |r| <= |s| && r == s[|s| - |r|..]
    ensures |r| > 0 ==> !IsSpace(r[0])
    ensures forall i :: 0 <= i < |s| - |r| ==> IsSpace(s[i])
  {
    if |s| > 0 && IsSpace(s[0]) then TrimLeft(s[1..]) else s
  }

  /** Drops trailing whitespace. */
  function TrimRight(s: string): (r: string)
    ensures |r| <= |s| && r == s[..|r|]
    ensures |r| > 0 ==> !IsSpace(r[|r| - 1])
    ensures forall i :: |r| <= i < |s| ==> IsSpace(s[i])
  {
    if |s| > 0 && IsSpace(s[|s| - 1]) then TrimRight(s[..|s| - 1]) else s
  }

  /** `str.strip()`: whitespace removed at both ends. */
  function Strip(s: string): string
  {
    TrimRight(TrimLeft(s))
  }

  /** Stripping removes whitespace only at the ends: the result is a piece of
      the text that neither starts nor ends with whitespace, and it is empty
      exactly when the text is all whitespace. */
  lemma StripTrims(s: string)
    ensures var r := Strip(s);
            && (|r| > 0 ==> !IsSpace(r[0]) && !IsSpace(r[|r| - 1]))
            && (forall c :: c in r ==> c in s)
            && ((forall i :: 0 <= i < |s| ==> IsSpace(s[i])) <==> r == [])
  {
    var l := TrimLeft(s);
    var r := TrimRight(l);
    forall c | c in r
      ensures c in s
    {
      var i :| 0 <= i < |r| && r[i] == c;
      assert l[i] == c;
      assert s[|s| - |l| + i] == c;
    }
    if |l| > 0 {
      assert !IsSpace(l[0]);
      assert |r| > 0;
    }
  }

  /** Text padded with whitespace strips back to the text itself. */
  lemma {:induction false} StripPadded(pre: string, t: string, post: string)
    requires forall i :: 0 <= i < |pre| ==> IsSpace(pre[i])
    requires forall i :: 0 <= i < |post| ==> IsSpace(post[i])
    requires |t| > 0 && !IsSpace(t[0]) && !IsSpace(t[|t| - 1])
    ensures Strip(pre + t + post) == t
  {
    var x := pre + t + post;
    assert x == pre + (t + post);
    TrimLeftPadded(pre, t + post);
    assert TrimLeft(x) == t + post;
    TrimRightPadded(t, post);
    assert Strip(x) == TrimRight(t + post);
  }

  lemma {:induction false} TrimLeftPadded(pre: string, s: string)
    requires forall i :: 0 <= i < |pre| ==> IsSpace(pre[i])
    requires |s| > 0 && !IsSpace(s[0])
    ensures TrimLeft(pre + s) == s
  {
    if |pre| > 0 {
      assert (pre + s)[1..] == pre[1..] + s;
      TrimLeftPadded(pre[1..], s);
    }
  }

  lemma {:induction false} TrimRightPadded(s: string, post: string)
    requires forall i :: 0 <= i < |post| ==> IsSpace(post[i])
    requires |s| > 0 && !IsSpace(s[|s| - 1])
    ensures TrimRight(s + post) == s
  {
    if |post| > 0 {
      var p := post[..|post| - 1];
      assert (s + post)[..|s + post| - 1] == s + p;
      TrimRightPadded(s, p);
    } else {
      assert s + post == s;
    }
  }

  /** Digits and underscores only. */
  predicate DigitsOrUnderscores(s: string)
  {
    forall i :: 0 <= i < |s| ==> IsDigit(s[i]) || s[i] == '_'
  }

  /** The digit part `int()` accepts: at least one decimal digit, where a single
      underscore may stand between two digits. */
  predicate Numeral(s: string)
  {
    && |s| > 0
    && IsDigit(s[0])
    && DigitsOrUnderscores(s)
    && forall i :: 0 <= i < |s| && s[i] == '_' ==> i + 1 < |s| && IsDigit(s[i + 1])
  }

  /** The value of a run of digits, underscores ignored. */
  function NumeralValue(s: string): nat
    requires DigitsOrUnderscores(s)
  {
    if |s| == 0 then 0
    else if s[|s| - 1] == '_' then NumeralValue(s[..|s| - 1])
    else NumeralValue(s[..|s| - 1]) * 10 + DigitValue(s[|s| - 1])
  }

  /** `int(s)` on a string: surrounding whitespace is ignored, one optional
      sign may lead, and the rest must be a numeral; anything else raises
      `ValueError`, modelled as `None`. A string without a digit never parses. */
  function ParseInt(s: string): (r: Option<int>)
    ensures (forall i :: 0 <= i < |s| ==> !IsDigit(s[i])) ==> r.None?
  {
    var t := Strip(s);
    var r := ParseSigned(t);
    assert r.Some? ==> exists i :: 0 <= i < |s| && IsDigit(s[i]) by {
      if r.Some? {
        StripTrims(s);
        var i :| 0 <= i < |t| && IsDigit(t[i]);
        assert t[i] in t;
      }
    }
    r
  }

  /** The stripped text: an optional sign followed by a numeral. */
  function ParseSigned(t: string): (r: Option<int>)
    ensures r.Some? ==> exists i :: 0 <= i < |t| && IsDigit(t[i])
  {
    if |t| > 0 && (t[0] == '-' || t[0] == '+') then
      if Numeral(t[1..]) then
        assert IsDigit(t[1]);
        var v: int := NumeralValue(t[1..]);
        Some(if t[0] == '-' then -v else v)
      else None
    else if Numeral(t) then
      Some(NumeralValue(t))
    else None
  }

  /** `str(n)` for a natural number: decimal digits, no leading zero. */
  function ShowNat(n: nat): (s: string)
    ensures Numeral(s) && DigitsOrUnderscores(s)
    ensures forall i :: 0 <= i < |s| ==> IsDigit(s[i])
    ensures NumeralValue(s) == n
  {
    if n < 10 then [DigitChar(n)]
    else
      var s := ShowNat(n / 10) + [DigitChar(n % 10)];
      assert s[..|s| - 1] == ShowNat(n / 10);
      s
  }

  /** `str(n)` for any integer. */
  function Show(n: int): string
  {
    if n < 0 then "-" + ShowNat(-n) else ShowNat(n)
  }

  /** `int()` reads back what `str()` wrote, whatever whitespace surrounds it. */
  lemma ParseShow(n: int, pre: string, post: string)
    requires forall i :: 0 <= i < |pre| ==> IsSpace(pre[i])
    requires forall i :: 0 <= i < |post| ==> IsSpace(post[i])
    ensures ParseInt(pre + Show(n) + post) == Some(n)
  {
    var t := Show(n);
    assert !IsSpace(t[0]) && !IsSpace(t[|t| - 1]);
    StripPadded(pre, t, post);
    ParseSignedShow(n);
  }

  /** `int(str(n)) == n`. */
  lemma ParseShown(n: int)
    ensures ParseInt(Show(n)) == Some(n)
  {
    var t := Show(n);
    assert !IsSpace(t[0]) && !IsSpace(t[|t| - 1]);
    assert TrimLeft(t) == t;
    assert TrimRight(t) == t;
    ParseSignedShow(n);
  }

  lemma ParseSignedShow(n: int)
    ensures ParseSigned(Show(n)) == Some(n)
  {
    var t := Show(n);
    if n < 0 {
      assert t[1..] == ShowNat(-n);
    } else {
      assert IsDigit(t[0]);
    }
  }

  /** Python's `str.split(sep)`: the pieces between separators, always at least
      one; joining them with the separator gives the text back. */
  function Split(s: string, sep: char): (parts: seq<string>)
    ensures |parts| >= 1
    ensures forall i :: 0 <= i < |parts| ==> sep !in parts[i]
    ensures Join(parts, sep) == s
    ensures sep !in s <==> |parts| == 1
  {
    if |s| == 0 then [""]
    else
      var rest := Split(s[1..], sep);
      assert s == [s[0]] + s[1..];
      if s[0] == sep then
        [""] + rest
      else
        var parts := [[s[0]] + rest[0]] + rest[1..];
        assert parts[1..] == rest[1..];
        assert rest == [rest[0]] + rest[1..];
        parts
  }

  /** `sep.join(parts)`. */
  function Join(parts: seq<string>, sep: char): string
    requires |parts| >= 1
  {
    if |parts| == 1 then parts[0] else parts[0] + [sep] + Join(parts[1..], sep)
  }

  /** Splitting text that begins with a separator-free piece puts that piece in
      front of the first part. */
  lemma {:induction false} SplitAfterPiece(a: string, t: string, sep: char)
    requires sep !in a
    ensures Split(a + t, sep) == [a + Split(t, sep)[0]] + Split(t, sep)[1..]
  {
    if |a| == 0 {
      assert a + t == t;
      var p := Split(t, sep);
      assert a + p[0] == p[0];
      assert p == [p[0]] + p[1..];
    } else {
      var p := Split(t, sep);
      assert (a + t)[1..] == a[1..] + t;
      assert (a + t)[0] == a[0] && a[0] != sep;
      SplitAfterPiece(a[1..], t, sep);
      var rest := Split(a[1..] + t, sep);
      assert rest == [a[1..] + p[0]] + p[1..];
      assert rest[0] == a[1..] + p[0] && rest[1..] == p[1..];
      assert Split(a + t, sep) == [[a[0]] + rest[0]] + rest[1..];
      HeadTail(a, p[0]);
    }
  }

  lemma HeadTail(a: string, b: string)
    requires |a| > 0
    ensures [a[0]] + (a[1..] + b) == a + b
  {
    assert a == [a[0]] + a[1..];
  }

  /** Separator-free pieces joined and split again come back unchanged. */
  lemma {:induction false} SplitJoin(parts: seq<string>, sep: char)
    requires |parts| >= 1
    requires forall i :: 0 <= i < |parts| ==> sep !in parts[i]
    ensures Split(Join(parts, sep), sep) == parts
  {
    if |parts| == 1 {
      SplitAfterPiece(parts[0], "", sep);
      assert parts[0] + "" == parts[0];
    } else {
      var rest := Join(parts[1..], sep);
      SplitJoin(parts[1..], sep);
      assert parts[0] + [sep] + rest == parts[0] + ([sep] + rest);
      SplitAfterPiece(parts[0], [sep] + rest, sep);
      assert ([sep] + rest)[1..] == rest;
      assert Split([sep] + rest, sep) == [""] + parts[1..];
      assert parts[0] + "" == parts[0];
    }
  }
}

=== FILE: verification.dfy ===
/** The verification flow's abuse tracking: the button-press check
    (`check_verification_spam`), the five-minute button expiry, the issued
    one-time codes, and the wrong-password counter of the code dialog. */
module Verification {
  import opened Wrappers
  import opened Clock
  import opened Window
  import opened Ids

  const PressWindowSeconds: int := 3600
  const MaxPresses: int := 3
  const WarningsForKick: int := 3
  const ButtonLifetimeSeconds: int := 300
  const MaxWrongCodes: int := 3

  datatype State = State(
    codes: map<GuildId, string>,                     // last code issued in each guild
    attempts: map<UserId, seq<Instant>>,             // button presses per user, any guild
    warnings: map<(GuildId, UserId), nat>,           // abuse warnings per guild member
    passwordErrors: map<(GuildId, UserId), nat>      // wrong codes per guild member
  )

  const Initial: State := State(map[], map[], map[], map[])

  function AttemptsOf(s: State, u: UserId): seq<Instant>
  {
    Lookup(s.attempts, u, [])
  }

  function WarningsOf(s: State, g: GuildId, u: UserId): nat
  {
    Lookup(s.warnings, (g, u), 0)
  }

  function ErrorsOf(s: State, g: GuildId, u: UserId): nat
  {
    Lookup(s.passwordErrors, (g, u), 0)
  }

  /** The tuple `check_verification_spam` returns. */
  datatype SpamCheck = SpamCheck(isSpam: bool, attemptCount: nat, warningCount: nat, shouldKick: bool)

  /** Record a press: drop presses an hour or more old, append `now`; it is
      abuse when more than three presses remain or the user is already
      verified, and only abuse adds a warning. */
  function CheckSpam(s: State, u: UserId, g: GuildId, now: Instant, alreadyVerified: bool)
    : (r: (State, SpamCheck))
    ensures AttemptsOf(r.0, u) == Retain(AttemptsOf(s, u), AgeBelow(PressWindowSeconds), now) + [now]
    ensures forall v :: v != u ==> AttemptsOf(r.0, v) == AttemptsOf(s, v)
    ensures r.1.attemptCount == |AttemptsOf(r.0, u)|
    ensures r.1.isSpam <==> r.1.attemptCount > MaxPresses || alreadyVerified
    ensures WarningsOf(r.0, g, u) == WarningsOf(s, g, u) + (if r.1.isSpam then 1 else 0)
    ensures forall h, v :: (h, v) != (g, u) ==> WarningsOf(r.0, h, v) == WarningsOf(s, h, v)
    ensures r.1.warningCount == WarningsOf(r.0, g, u)
    ensures r.1.shouldKick <==> r.1.isSpam && r.1.warningCount >= WarningsForKick
    ensures r.0.codes == s.codes && r.0.passwordErrors == s.passwordErrors
  {
    var presses := Retain(AttemptsOf(s, u), AgeBelow(PressWindowSeconds), now) + [now];
    var s1 := s.(attempts := s.attempts[u := presses]);
    if |presses| > MaxPresses || alreadyVerified then
      var w := WarningsOf(s, g, u) + 1;
      (s1.(warnings := s.warnings[(g, u) := w]), SpamCheck(true, |presses|, w, w >= WarningsForKick))
    else
      (s1, SpamCheck(false, |presses|, WarningsOf(s, g, u), false))
  }

  datatype PressVerdict =
    | ButtonExpired                          // more than five minutes after the button was posted
    | Abuse(check: SpamCheck)                // warning recorded; a kick and blacklist if `shouldKick`
    | CodeIssued(code: string)               // the code is stored for the guild and sent to the user

  /** A press of the "open verification" button posted at `viewCreatedAt`.
      `alreadyVerified` is the stored verification record and `newCode` the
      six-digit code that would be drawn. The handler reads the clock twice:
      `now` for the button's expiry (main.py:2546) and `pressAt` inside the
      press check (main.py:2400), with a database query in between; the two
      are not constrained relative to each other. */
  function Press(s: State, g: GuildId, u: UserId, now: Instant, pressAt: Instant, viewCreatedAt: Instant,
                 alreadyVerified: bool, newCode: string): (r: (State, PressVerdict))
    ensures r.1.ButtonExpired? <==> now - viewCreatedAt > Seconds(ButtonLifetimeSeconds)
    ensures r.1.ButtonExpired? ==> r.0 == s
    ensures !r.1.ButtonExpired? ==>
      var c := CheckSpam(s, u, g, pressAt, alreadyVerified);
      && (r.1.Abuse? <==> c.1.isSpam)
      && (r.1.Abuse? ==> r.0 == c.0 && r.1.check == c.1)
      && (r.1.CodeIssued? ==> r.0 == c.0.(codes := s.codes[g := newCode]) && r.1.code == newCode)
  {
    if now - viewCreatedAt > Seconds(ButtonLifetimeSeconds) then (s, ButtonExpired)
    else
      var c := CheckSpam(s, u, g, pressAt, alreadyVerified);
      if c.1.isSpam then (c.0, Abuse(c.1))
      else (c.0.(codes := s.codes[g := newCode]), CodeIssued(newCode))
  }

  datatype SubmitVerdict =
    | Verified                               // counter reset, the guild's code removed
    | WrongCode(errors: nat, remaining: int) // counter raised; `remaining` more tries
    | CodeInvalidated(errors: nat)           // third or later wrong code: the guild's code removed

  /** The code dialog for member `u` of guild `g`, opened with `correctCode`;
      `entered` is what the member typed. */
  function Submit(s: State, g: GuildId, u: UserId, correctCode: string, entered: string)
    : (r: (State, SubmitVerdict))
    ensures r.1.Verified? <==> entered == correctCode
    ensures r.1.Verified? ==> ErrorsOf(r.0, g, u) == 0
    ensures !r.1.Verified? ==> ErrorsOf(r.0, g, u) == ErrorsOf(s, g, u) + 1 && r.1.errors == ErrorsOf(r.0, g, u)
    ensures r.1.CodeInvalidated? <==> !r.1.Verified? && ErrorsOf(r.0, g, u) >= MaxWrongCodes
    ensures r.1.WrongCode? ==> r.1.remaining == MaxWrongCodes - r.1.errors && r.1.remaining > 0
    ensures r.1.WrongCode? ==> r.0.codes == s.codes
    ensures !r.1.WrongCode? ==> r.0.codes == s.codes - {g}
    ensures forall h, v :: (h, v) != (g, u) ==> ErrorsOf(r.0, h, v) == ErrorsOf(s, h, v)
    ensures r.0.attempts == s.attempts && r.0.warnings == s.warnings
  {
    if entered == correctCode then
      (s.(passwordErrors := s.passwordErrors[(g, u) := 0], codes := s.codes - {g}), Verified)
    else
      var e := ErrorsOf(s, g, u) + 1;
      var s1 := s.(passwordErrors := s.passwordErrors[(g, u) := e]);
      if e >= MaxWrongCodes then (s1.(codes := s.codes - {g}), CodeInvalidated(e))
      else (s1, WrongCode(e, MaxWrongCodes - e))
  }

  /** The counter is not reset on invalidation: once three wrong codes have been
      entered, every further wrong code invalidates again. */
  lemma InvalidationRepeats(s: State, g: GuildId, u: UserId, correctCode: string, entered: string)
    requires ErrorsOf(s, g, u) >= MaxWrongCodes && entered != correctCode
    ensures Submit(s, g, u, correctCode, entered).1.CodeInvalidated?
  {
  }

  /** The dialog compares against the code it was opened with: the codes stored
      per guild do not influence the verdict. */
  lemma SubmitIgnoresStoredCodes(s: State, codes: map<GuildId, string>, g: GuildId, u: UserId,
                                 correctCode: string, entered: string)
    ensures Submit(s.(codes := codes), g, u, correctCode, entered).1 == Submit(s, g, u, correctCode, entered).1
  {
  }

  /** Codes are stored per guild only: when two members of a guild are issued
      codes one after the other, only the later code is stored. */
  lemma LaterCodeReplacesEarlier(s: State, g: GuildId, u1: UserId, u2: UserId, t1: Instant, t2: Instant,
                                 p1: Instant, p2: Instant, created: Instant, v1: bool, v2: bool,
                                 c1: string, c2: string)
    requires Press(s, g, u1, t1, p1, created, v1, c1).1.CodeIssued?
    requires Press(Press(s, g, u1, t1, p1, created, v1, c1).0, g, u2, t2, p2, created, v2, c2).1.CodeIssued?
    ensures Press(Press(s, g, u1, t1, p1, created, v1, c1).0, g, u2, t2, p2, created, v2, c2).0.codes[g] == c2
  {
  }

  /** Presses are counted per user across all guilds: the guild a press comes
      from does not change the press count it sees. */
  lemma PressesSharedAcrossGuilds(s: State, u: UserId, g1: GuildId, g2: GuildId, now: Instant, v: bool)
    ensures CheckSpam(s, u, g1, now, v).1.attemptCount == CheckSpam(s, u, g2, now, v).1.attemptCount
    ensures AttemptsOf(CheckSpam(s, u, g1, now, v).0, u) == AttemptsOf(CheckSpam(s, u, g2, now, v).0, u)
  {
  }

  /** Four presses within one hour by a member with no earlier presses draw
      exactly one warning, on the fourth press. */
  lemma FourthPressWarns(s: State, g: GuildId, u: UserId, t1: Instant, t2: Instant, t3: Instant, t4: Instant)
    requires AttemptsOf(s, u) == []
    requires t1 <= t2 <= t3 <= t4 && t4 - t1 < Seconds(PressWindowSeconds)
    ensures var c1 := CheckSpam(s, u, g, t1, false);
            var c2 := CheckSpam(c1.0, u, g, t2, false);
            var c3 := CheckSpam(c2.0, u, g, t3, false);
            var c4 := CheckSpam(c3.0, u, g, t4, false);
            && !c1.1.isSpam && !c2.1.isSpam && !c3.1.isSpam && c4.1.isSpam
            && c4.1.attemptCount == 4
            && WarningsOf(c4.0, g, u) == WarningsOf(s, g, u) + 1
  {
    var w := WarningsOf(s, g, u);
    var c1 := CheckSpam(s, u, g, t1, false);
    assert AttemptsOf(c1.0, u) == [t1] && !c1.1.isSpam && WarningsOf(c1.0, g, u) == w by {
      RecentPress(s, u, g, t1, []);
    }
    var c2 := CheckSpam(c1.0, u, g, t2, false);
    assert AttemptsOf(c2.0, u) == [t1, t2] && !c2.1.isSpam && WarningsOf(c2.0, g, u) == w by {
      RecentPress(c1.0, u, g, t2, [t1]);
    }
    var c3 := CheckSpam(c2.0, u, g, t3, false);
    assert AttemptsOf(c3.0, u) == [t1, t2, t3] && !c3.1.isSpam && WarningsOf(c3.0, g, u) == w by {
      RecentPress(c2.0, u, g, t3, [t1, t2]);
    }
    var c4 := CheckSpam(c3.0, u, g, t4, false);
    assert AttemptsOf(c4.0, u) == [t1, t2, t3, t4] && c4.1.isSpam && WarningsOf(c4.0, g, u) == w + 1 by {
      RecentPress(c3.0, u, g, t4, [t1, t2, t3]);
    }
  }

  /** A press by an unverified member whose recorded presses all lie within
      the last hour keeps them all and adds itself. */
  lemma RecentPress(s: State, u: UserId, g: GuildId, now: Instant, xs: seq<Instant>)
    requires AttemptsOf(s, u) == xs
    requires forall i :: 0 <= i < |xs| ==> now - xs[i] < Seconds(PressWindowSeconds)
    ensures var c := CheckSpam(s, u, g, now, false);
            && AttemptsOf(c.0, u) == xs + [now]
            && (c.1.isSpam <==> |xs| >= MaxPresses)
            && WarningsOf(c.0, g, u) == WarningsOf(s, g, u) + (if |xs| >= MaxPresses then 1 else 0)
  {
    RetainAllKept(xs, AgeBelow(PressWindowSeconds), now);
  }

  /** The state after a member's presses in guild `g`, each press given with
      its instant and whether the member was already verified then. */
  function RunPresses(s: State, u: UserId, g: GuildId, ps: seq<(Instant, bool)>): State
  {
    if |ps| == 0 then s
    else
      var last := ps[|ps| - 1];
      CheckSpam(RunPresses(s, u, g, ps[..|ps| - 1]), u, g, last.0, last.1).0
  }

  /** A member who is already verified is flagged on every press, so warnings
      pile up one per press, never reset, and the press that brings them to
      three is a kick decision: from no warnings, the third such press kicks
      and the two before it do not. */
  lemma {:induction false} VerifiedPressesEscalate(s: State, u: UserId, g: GuildId,
                                                    ps: seq<(Instant, bool)>, now: Instant)
    requires forall i :: 0 <= i < |ps| ==> ps[i].1
    ensures WarningsOf(RunPresses(s, u, g, ps), g, u) == WarningsOf(s, g, u) + |ps|
    ensures CheckSpam(RunPresses(s, u, g, ps), u, g, now, true).1.shouldKick
        <==> WarningsOf(s, g, u) + |ps| + 1 >= WarningsForKick
  {
    if |ps| > 0 {
      VerifiedPressesEscalate(s, u, g, ps[..|ps| - 1], ps[|ps| - 1].0);
    }
  }
}

=== FILE: window.dfy ===
/** The sliding-window primitive shared by every time-boxed detector: a
    sequence of recorded instants per key, trimmed by an age test. The bot
    trims in two ways, both modelled here: rebuilding the list with a
    comprehension (`Retain`) and popping stale entries off the front of a
    deque (`EvictStale`, used only by the message-rate limiter). */
module Window {
  import opened Clock

  /** The age tests the source applies to `now - t`. */
  datatype Cutoff =
    | AgeAtMost(limit: int)         // `(now - t).total_seconds() <= limit`
    | AgeBelow(limit: int)          // `(now - t).total_seconds() < limit`
    | SecondsFieldBelow(limit: int) // `(now - t).seconds < limit`

  predicate Keeps(c: Cutoff, now: Instant, t: Instant)
  {
    match c
    case AgeAtMost(limit) => now - t <= Seconds(limit)
    case AgeBelow(limit) => now - t < Seconds(limit)
    case SecondsFieldBelow(limit) => SecondsField(now - t) < limit
  }

  /** The instants of `ts` that pass the age test, in their recorded order. */
  function Retain(ts: seq<Instant>, c: Cutoff, now: Instant): (r: seq<Instant>)
    ensures |r| <= |ts|
    ensures forall t :: t in r <==> t in ts && Keeps(c, now, t)
  {
    if |ts| == 0 then []
    else if Keeps(c, now, ts[0]) then [ts[0]] + Retain(ts[1..], c, now)
    else Retain(ts[1..], c, now)
  }

  /** Every copy of a kept instant survives and no copy of a dropped one does,
      so the length of the trimmed window, which each detector compares with
      its threshold, is the number of recorded entries that pass the test. */
  lemma {:induction false} RetainCounts(ts: seq<Instant>, c: Cutoff, now: Instant)
    ensures forall t :: multiset(Retain(ts, c, now))[t] == if Keeps(c, now, t) then multiset(ts)[t] else 0
  {
    if |ts| > 0 {
      RetainCounts(ts[1..], c, now);
      assert ts == [ts[0]] + ts[1..];
    }
  }

  /** Trimming never reorders: a window recorded in order stays in order. */
  lemma {:induction false} RetainSorted(ts: seq<Instant>, c: Cutoff, now: Instant)
    requires Sorted(ts)
    ensures Sorted(Retain(ts, c, now))
  {
    if |ts| > 0 {
      var rest := Retain(ts[1..], c, now);
      assert Sorted(rest) by {
        RetainSorted(ts[1..], c, now);
      }
      assert forall t :: t in rest ==> ts[0] <= t by {
        forall t | t in rest
          ensures ts[0] <= t
        {
          var i :| 0 <= i < |ts[1..]| && ts[1..][i] == t;
          assert ts[i + 1] == t;
        }
      }
      if Keeps(c, now, ts[0]) {
        var r := [ts[0]] + rest;
        forall i, j | 0 <= i < j < |r|
          ensures r[i] <= r[j]
        {
          assert r[j] == rest[j - 1] && r[j] in rest;
          if i > 0 {
            assert r[i] == rest[i - 1];
          }
        }
      }
    }
  }

  /** Filtering a concatenation filters each part: recorded order is kept. */
  lemma {:induction false} RetainAppend(a: seq<Instant>, b: seq<Instant>, c: Cutoff, now: Instant)
    ensures Retain(a + b, c, now) == Retain(a, c, now) + Retain(b, c, now)
  {
    if |a| == 0 {
      assert a + b == b;
    } else {
      assert (a + b)[0] == a[0];
      assert (a + b)[1..] == a[1..] + b;
      RetainAppend(a[1..], b, c, now);
    }
  }

  /** A window whose every entry passes the test is left exactly as it was. */
  lemma {:induction false} RetainAllKept(ts: seq<Instant>, c: Cutoff, now: Instant)
    requires forall i :: 0 <= i < |ts| ==> Keeps(c, now, ts[i])
    ensures Retain(ts, c, now) == ts
  {
    if |ts| > 0 {
      RetainAllKept(ts[1..], c, now);
    }
  }

  /** Record `now` and then trim: the window holds the surviving earlier
      entries in order, followed by `now` itself whenever `now` passes the test. */
  lemma RecordThenRetain(ts: seq<Instant>, c: Cutoff, now: Instant)
    ensures Retain(ts + [now], c, now)
         == Retain(ts, c, now) + (if Keeps(c, now, now) then [now] else [])
  {
    RetainAppend(ts, [now], c, now);
    assert [now][1..] == [];
  }

  /** Pop entries off the front while they are more than `limit` seconds old,
      as the message-rate limiter's `while ... popleft()` loop does. */
  function EvictStale(ts: seq<Instant>, now: Instant, limit: int): (r: seq<Instant>)
    ensures |r| <= |ts| && r == ts[|ts| - |r|..]
    ensures forall i :: 0 <= i < |ts| - |r| ==> !Keeps(AgeAtMost(limit), now, ts[i])
    ensures |r| > 0 ==> Keeps(AgeAtMost(limit), now, r[0])
  {
    if |ts| > 0 && !Keeps(AgeAtMost(limit), now, ts[0]) then
      var r' := EvictStale(ts[1..], now, limit);
      assert forall i :: 1 <= i < |ts| - |r'| ==> ts[i] == ts[1..][i - 1];
      assert ts[|ts| - |r'|..] == ts[1..][|ts[1..]| - |r'|..];
      r'
    else ts
  }

  /** On timestamps recorded in non-decreasing order, popping from the front
      removes exactly the entries a full filter would remove. */
  lemma {:induction false} EvictStaleIsRetainWhenSorted(ts: seq<Instant>, now: Instant, limit: int)
    requires Sorted(ts)
    ensures EvictStale(ts, now, limit) == Retain(ts, AgeAtMost(limit), now)
  {
    if |ts| == 0 {
    } else if !Keeps(AgeAtMost(limit), now, ts[0]) {
      EvictStaleIsRetainWhenSorted(ts[1..], now, limit);
    } else {
      forall i | 0 <= i < |ts|
        ensures Keeps(AgeAtMost(limit), now, ts[i])
      {
        assert ts[0] <= ts[i];
      }
      RetainAllKept(ts, AgeAtMost(limit), now);
    }
  }

  /** Out of order, popping from the front stops at the first fresh entry and
      can leave a stale one behind it that a full filter would drop. */
  lemma EvictStaleKeepsStaleBehindFresh(now: Instant)
    ensures EvictStale([now, now - Seconds(30)], now, 20) == [now, now - Seconds(30)]
    ensures Retain([now, now - Seconds(30)], AgeAtMost(20), now) == [now]
  {
    var ts := [now, now - Seconds(30)];
    assert ts[1..] == [now - Seconds(30)];
    assert ts[1..][1..] == [];
  }

  /** The `.seconds` test keeps an entry that is one day and `s` seconds old
      whenever `s` is below the limit, although it is far older than the limit. */
  lemma SecondsFieldKeepsDayOld(now: Instant, s: int, limit: int)
    requires 0 <= s < limit <= SecondsPerDay
    ensures Keeps(SecondsFieldBelow(limit), now, now - Seconds(SecondsPerDay + s))
    ensures !Keeps(AgeBelow(limit), now, now - Seconds(SecondsPerDay + s))
  {
    SecondsFieldWraps(s, 0);
    assert now - (now - Seconds(SecondsPerDay + s)) == Seconds(SecondsPerDay + s) + 0;
  }

  /** Below one day of age the `.seconds` test and the true-age test agree. */
  lemma SecondsFieldAgreesWithinADay(now: Instant, t: Instant, limit: int)
    requires 0 <= now - t < Seconds(SecondsPerDay)
    requires 0 <= limit <= SecondsPerDay
    ensures Keeps(SecondsFieldBelow(limit), now, t) <==> Keeps(AgeBelow(limit), now, t)
  {
    var s := SecondsField(now - t);
    assert Seconds(s) <= now - t < Seconds(s + 1);
    if s < limit {
      assert s + 1 <= limit;
      assert Seconds(s + 1) <= Seconds(limit);
    } else {
      assert Seconds(limit) <= Seconds(s);
    }
  }
}

=== FILE: wrappers.dfy ===
/** Small shared vocabulary: an optional value and lookups in keyed stores
    whose missing keys read as a default, the way the bot's `defaultdict`
    tables behave. */
module Wrappers {

  datatype Option<T> = None | Some(value: T) {
    /** The value, or `default` when there is none. */
    function GetOr(default: T): T
    {
      match this
      case Some(v) => v
      case None => default
    }
  }

  /** Value stored under `k`, or `default` when the store has never seen `k`. */
  function Lookup<K, V>(m: map<K, V>, k: K, default: V): (v: V)
    ensures k in m ==> v == m[k]
    ensures k !in m ==> v == default
  {
    if k in m then m[k] else default
  }

  /** Two stores agree on every key except possibly `k`, reading missing keys as `default`. */
  ghost predicate SameExcept<K(!new), V>(m: map<K, V>, m': map<K, V>, k: K, default: V)
  {
    forall j :: j != k ==> Lookup(m, j, default) == Lookup(m', j, default)
  }
}

/** Identifiers of the chat platform. */
module Ids {
  type UserId = int
  type GuildId = int
}
